=== FILE: README.md ===
# blue-sky kernel core in Dafny

A model of the core of the blue-sky-re kernel, a C++ library for object
trees. In blue-sky a tree is made of **nodes**. Each node holds **links**, and
a link points to an object (`objbase`). The model covers these parts:

- **node link container** (module `Node`, views in `NodeKeys`, ordered indices
  in `KeySort`): one sequence of links in custom order, seen through a hashed
  unique ID view and ordered name, object-id and type views. Covers search,
  index, values, keys, equal range, erase, rename, rearrange and the insert
  policy flags.
- **Python helpers on a node** (module `PyNode`): Python-style indexing
  computed in 64-bit `long`/`size_t`, and `KeyError`/`IndexError` on misses.
- **links and objects** (modules `Links`, `ObjBase`, `Ids`): link identity,
  flags, owner, the two request-status slots with their conditional resets,
  hard links and object construction. Random UUIDs are replaced by a fresh-id
  oracle.
- **symbolic links** (module `SymLink`): path resolution from the owner, with
  path dereference as a parameter.
- **filesystem archive writer** (module `FsOutput`): directory stack, heads,
  `end_node`'s records, formatter selection, free file names and
  `save_object`.
- **savers' manager** (module `Savers`): counts started and finished saves,
  collects errors and answers the final wait.
- **save and load entry points** (module `TreeSerial`, error folding in
  `Errors`).
- **type descriptors and the kernel's type registry** (modules `TypeInfo`,
  `KernelTypes`).
- **plugin subsystem** (modules `Plugins`, `Bindings`).
- **plugin search-path discovery** (module `Discover`).

Everything is immutable data and pure functions. The few methods are loops or
sequential state updates. Their inputs stand in for the things the C++ reads
from the outside world:

- the files already present in a directory;
- what a plugin library exports;
- environment variables;
- the results of path dereference and of the cereal archives.

## Model

| member | source | states |
|---|---|---|
| Node.Find | kernel/src/tree/node_impl.h:140-147 | Lookup by position clamps to the size, so an index at or past the end yields end and nothing past it is read. A string key yields the first link carrying it, and end exactly when no link does. |
| Node.ToIndex | kernel/src/tree/node_impl.h:129-135 | The end position maps to none; any other position maps to its custom-order offset. |
| Node.Index | kernel/src/tree/node_impl.h:159-163 | `index<K>` has a value exactly when some link answers the key in view K. The value is then a valid custom-order position holding a link with that key, or the given position itself for AnyOrder. |
| Node.Search | kernel/src/tree/node_impl.h:149-155 | Returns null exactly when no link answers the key. Otherwise it returns the link at the custom-order position `index<K>` reports, which carries the key. |
| Node.SearchOrFail | kernel/include/bs/tree/node.h:158-164 | The throwing `search` fails with `KeyMismatch` exactly when the key is absent, and otherwise returns the link the non-throwing search finds. The C++ calls `find(k)`, whose string form defaults to the ID view; the model states this for every view, ID included. |
| Node.FindOwnId | kernel/include/bs/tree/node.h:54-63 | IDs are unique in a valid node, so looking up a link's own id finds that link's position. |
| Node.Values | kernel/src/tree/node_impl.h:200-205 | Every view lists exactly the node's links: same length, same multiset. Ordered views are sorted by their key. |
| Node.Keys | kernel/src/tree/node_impl.h:184-198 | `keys<K>` lists the K key of every link, one per link, in the container's own iteration order, which is the custom order. |
| Node.KeysListPresent | kernel/src/tree/node_impl.h:159-198 | A key is listed by `keys<K>` exactly when the view finds it. |
| Node.KeysIndexRoundTrip | kernel/src/tree/node_impl.h:159-198 | Looking up the i-th listed key finds a link at position i or earlier. In a valid node, looking up the i-th listed id finds position i itself. |
| Node.EqualRange | kernel/src/tree/node_impl.h:167-177 | The equal range holds only links of the node that carry the key. |
| Node.EqualRangeComplete | kernel/src/tree/node_impl.h:167-177 | The equal range holds every link of the node that carries the key, each as often as the node holds it, and nothing else. |
| Node.EqualRangeIsViewRun | kernel/src/tree/node_impl.h:167-177 | The run of a key in the sorted view is the same links, in the same order, as the selection of that key from the custom order. All views agree on which links carry a key. |
| KeySort.MatchingCounts | kernel/src/tree/node_impl.h:167-177 | Selecting the elements with one key keeps every copy of each of them and nothing more. |
| Node.Detach | kernel/src/tree/node_impl.h:299-304 | A link leaving the node has its owner reset unless `DontResetOwner` is given, in which case it is untouched. A symbolic link left without owner resolves to nothing; nothing else changes. |
| Node.EraseUnique | kernel/src/tree/node_impl.h:224-233 | Erase by ID or position hands `erase_impl` the link found. When one is found, it is removed, its position is reported, the other links keep their order and a valid node stays valid. When none is found, the end iterator is handed on unchecked; the result says so (`AtEnd`) instead of claiming an outcome. |
| Node.EraseEqual | kernel/src/tree/node_impl.h:306-318 | Erase by name, object id or type removes the whole equal range and returns its size. Exactly the links with another key remain, and the removed links are the range's links, detached. |
| Node.WithoutKeepsUniqueIds | kernel/include/bs/tree/node.h:58 | Dropping links from a container never breaks the uniqueness of the ID index. |
| Node.RenameUnique | kernel/src/tree/node_impl.h:248-253 | Rename by ID or position renames the link found, if any, and returns 0 or 1. No other link and nothing else changes. |
| Node.RenameEqual | kernel/src/tree/node_impl.h:254-259 | Rename by name, object id or type renames every link of the equal range and returns how many. Every other link is unchanged. |
| Node.Rearrange | kernel/src/tree/node_impl.h:269-278 | Every key must be found. The new custom order is the links found for the first `size()` keys, in the given order; a longer key list is accepted. When the keys are ids, the i-th link has the i-th id. A valid node stays valid. |
| Node.RearrangeIgnoresTail | kernel/src/tree/node_impl.h:269-278 | Found keys appended after the first `size()` are only looked up: the longer list is accepted and gives the same node. |
| Node.RearrangeByOwnIds | kernel/src/tree/node_impl.h:269-278 | Rearranging by the node's own ids, in custom order, is accepted and leaves the node unchanged. |
| Node.PolicyCombination | kernel/include/bs/tree/node.h:180-188 | Insert policies are bit flags: a combined policy holds a flag exactly when one of its parts does, and AllowDupNames (0) is always held. |
| Node.InsertAllSnoc | kernel/include/bs/tree/node.h:197-211 | Container insert inserts its elements one by one, in order, all with the same policy. Inserting one more element is inserting it after the rest. |
| Node.InsertAllAppend | kernel/include/bs/tree/node.h:197-211 | Inserting a concatenation inserts the first part and then the second. |
| PyNode.Contains | kernel/src/python/py_node.cpp:32-41 | `contains` is true exactly when some link carries the key in that view. |
| PyNode.ContainsLink | kernel/src/python/py_node.cpp:32-41 | A link counts as contained when a link with its id is present, so every link of a valid node is contained. |
| PyNode.ContainsObj | kernel/src/python/py_node.cpp:32-41 | An object counts as contained when some link's `oid()` equals its id. For a symbolic link that is the id of the object its path resolves to. |
| PyNode.FindPy | kernel/src/python/py_node.cpp:44-65 | `find` succeeds exactly when `contains` holds, and returns a link of the node carrying the key. Otherwise it raises `KeyError` with the message naming the key. |
| PyNode.PositiveIdx | kernel/src/python/py_node.cpp:72-77 | A negative `long` index, taken modulo 2^64 and added to the size, lands on `size+idx` when that is non-negative. Otherwise it lands at or past the size, and never below it. |
| PyNode.FindByIdx | kernel/src/python/py_node.cpp:72-77 | Python indexing: succeeds exactly for `-size <= idx < size`, returning the link at `idx` or at `size+idx`. Any other index raises `KeyError("Index out of bounds")`. |
| PyNode.IndexPy | kernel/src/python/py_node.cpp:80-92 | Returns the custom-order position of a link with the key, or raises `IndexError` exactly when the key is absent. |
| PyNode.IndexFindRoundTrip | kernel/src/python/py_node.cpp:72-92 | The position `index` returns, used with `find_by_idx`, finds the same link as `find` by key. |
| PyNode.InsertPy | kernel/src/python/py_node.cpp:221-231 | The insert binding performs the node's single-link insert and hands back only its "added" flag. |
| PyNode.EraseIdxAsWritten | kernel/src/python/py_node.cpp:118-123 | The guard as written raises exactly when `abs(idx) > size`. `idx == size`, and only it, gets past the guard to an erase at `end()`. Every other admitted index removes the link at `idx` or `size+idx`. |
| PyNode.EraseIdxAcceptsEnd | kernel/src/python/py_node.cpp:118-123 | `erase_idx` sends `idx == size` on to an erase at `end()`, although `find_by_idx` rejects that index. |
| PyNode.EraseIdx | kernel/src/python/py_node.cpp:118-123 | Corrected `erase_idx`: succeeds exactly when `find_by_idx` does, and removes exactly that link, keeping the others in order. A valid node stays valid and no longer holds the link. |
| PyNode.EraseIdxAgreesOffEnd | kernel/src/python/py_node.cpp:72-77 | Except at `idx == size`, the guard as written and the corrected one raise for the same indices and leave the same node. |
| Links.NewLink | kernel/src/link.cpp:24-27 | A new link has the given name, an id not used before, flags 0, no owner and both status slots `Void`. |
| Links.CopyLink | kernel/src/link.cpp:29-33 | A copy keeps the name but never the id: it gets a fresh id, flags 0 and no owner. A hard or weak copy keeps the pointee. A symbolic copy keeps the path, but having no owner it resolves to nothing, so its `oid` is the nil UUID. |
| Links.PointeeViews | kernel/src/link.cpp:37-48 | A link whose `data()` is null reports the nil UUID string and the nil type name. Otherwise `oid` and `obj_type_id` are the object's. This holds for every kind of link, a symbolic link's `data()` being the object its path resolves to. |
| Links.ResetOwner | kernel/src/link.cpp:50-52 | `reset_owner(n)` sets the owner to `n` and changes nothing else. |
| Links.SetFlags | kernel/src/link.cpp:54-60 | After `set_flags(f)`, `flags()` returns `f`; nothing else changes. |
| Links.Rename | kernel/src/python/py_link.cpp:81 | Renaming changes only the name. |
| Links.RsReset | kernel/src/tree/link_impl.h:96-99 | Returns the previous status of the request. The slot takes the new value exactly when the reset's condition held, and the other slot and the rest of the link never change. |
| Links.RsResetAlways | kernel/src/python/py_link.cpp:83-86 | An unconditional reset leaves the new status in the slot and the other slot unchanged. |
| Links.RsResetIfEq | kernel/src/python/py_link.cpp:87-90 | Sets the new status only when the slot equals the given one; otherwise the link is unchanged. Returns the previous status. |
| Links.RsResetIfNeq | kernel/src/python/py_link.cpp:91-94 | Sets the new status only when the slot differs from the given one; otherwise the link is unchanged. Returns the previous status. |
| Links.ClaimBusyAtMostOnce | kernel/src/tree/link_impl.h:48-61 | Of two consecutive `Void -> Busy` claims, at most one sees `Void`, and afterwards the slot is not `Void`. |
| Links.ResetIfNeqToSelfLands | kernel/src/tree/sym_link.cpp:116-121 | The `if_neq(S) -> S` reset always leaves the slot at `S`. |
| Links.NewHardLink | kernel/src/hard_link.cpp:14-24 | A hard link stores the given name and object pointer, which may be null. `data()` returns exactly that pointer. `oid`/`obj_type_id` are the object's, or nil for a null pointer. Its type id is the hard-link tag. |
| Links.CloneHard | kernel/src/hard_link.cpp:26-28 | A clone points to the same object under the same name, with a fresh id and zero flags. |
| Ids.FreshId | kernel/src/link.cpp:24-27 | The generated id is non-empty and differs from every id in use. |
| ObjBase.NewObject | kernel/src/objbase.cpp:32-35 | A non-empty custom oid becomes the id. An empty one is replaced by a fresh, non-empty id. |
| ObjBase.NewPlainObject | kernel/src/objbase.cpp:28-30 | An object built from an oid string alone is not a node. |
| ObjBase.CopyObject | kernel/src/objbase.cpp:37-39 | A copy gets a fresh id and keeps the node marker and the type. |
| ObjBase.Swap | kernel/src/objbase.cpp:41-44 | `swap` exchanges id and node marker; each object keeps its dynamic type. |
| ObjBase.SwapInvolution | kernel/src/objbase.cpp:41-44 | Swapping twice restores both objects. |
| TypeInfo.FromName | kernel/src/type_info.cpp:39-41 | A descriptor built from a name alone carries that name and is nil. |
| TypeInfo.NilIsNil | kernel/src/type_info.cpp:53-62 | The nil descriptor is nil and is named `__blue_sky_nil_type__`. |
| TypeInfo.LessIsStrictTotalOnNames | kernel/src/type_info.cpp:64-66 | `operator<` compares names only. Descriptors with different names are ordered one way, never both, and never a descriptor against itself. |
| TypeInfo.UpcastableEq | kernel/src/type_info.cpp:68-78 | The parent-chain walk answers true exactly when `a` equals `b` or one of the non-nil ancestors of `b`. |
| TypeInfo.UpcastableReflexive | kernel/src/type_info.cpp:69 | Every descriptor is upcastable to itself. |
| TypeInfo.UpcastableNotSymmetric | kernel/src/type_info.cpp:71-78 | A derived type is upcastable to its base but not the reverse. |
| KeySort.SortByKeySorted | kernel/include/bs/tree/node.h:54-63 | An ordered index lists its elements sorted by key. |
| KeySort.SortByKeyStable | kernel/include/bs/tree/node.h:54-63 | Within one key, an ordered index keeps the custom order of the elements. |
| SymLink.NewSymLink | kernel/src/tree/sym_link.cpp:84-90 | A symbolic link stores name, path and flags, gets a fresh id and no owner, so it resolves to nothing yet. Its type id is `"sym_link"`. |
| SymLink.SymPointee | kernel/src/tree/sym_link.cpp:52-62 | Without an owner, `UnboundSymLink`. An exception from dereference is returned as is, a null result gives `LinkExpired`, and success returns exactly the resolved link. |
| SymLink.ViaPointee | kernel/src/tree/sym_link.cpp:64-74 | `data()` and the group-id query forward to the resolved link. A failed resolution is returned unchanged. |
| SymLink.SymOid | kernel/src/link.cpp:37-42 | `oid()` of a symbolic link: the id of the object `data_ex` of the resolved source link yields. It is the nil UUID when the link is unowned, when resolution fails, or when no object comes back. |
| SymLink.CoherentOid | kernel/src/link.cpp:37-48 | When a symbolic link's view agrees with resolving its path, the generic `oid()`, and with it the node's OID view, is the resolved object's id. |
| SymLink.UnownedCoherent | kernel/src/tree/sym_link.cpp:52-54 | An unowned symbolic link resolves to nothing, whatever dereference would do. |
| SymLink.CopyCoherent | kernel/src/link.cpp:29-33 | A copied symbolic link is unowned with an empty view, so its view agrees with resolution whatever dereference does. |
| SymLink.CloneSym | kernel/src/tree/sym_link.cpp:97-100 | A clone has the same name, path and flags and a fresh id. Having no owner, it resolves to nothing. |
| SymLink.CheckAlive | kernel/src/tree/sym_link.cpp:116-121 | Sets the `Data` status to OK exactly when the path resolves, and to Error when it does not. Returns whether it resolved. An exception propagates, and the other slot is untouched. |
| SymLink.CheckAliveAgreesWithPointee | kernel/src/tree/sym_link.cpp:52-62 | After `check_alive`, a bound link's `Data` status is OK exactly when `pointee()` succeeds. |
| SymLink.SymResetOwner | kernel/src/tree/sym_link.cpp:110-114 | The owner is set first, in every case; id, name, flags and path stay. Liveness is then re-checked from the new owner: `Data` is OK exactly when the path resolves there, and the other slot is untouched. When dereference throws, the exception is reported together with the link, which already has the new owner and its old status slots. Either way the link's view agrees with resolution from the new owner. |
| SymLink.SrcPath | kernel/src/tree/sym_link.cpp:124-129 | Without human-readable form: the stored path verbatim. With it: empty without owner, otherwise the path converted against the owner. |
| FsOutput.NewArchive | kernel/src/serialize/tree_fs_output.cpp:42-45 | A fresh archive is valid, with no current directory, no heads, nothing written and nothing sent. |
| FsOutput.EnterRoot | kernel/src/serialize/tree_fs_output.cpp:59-67 | An archive that entered no directory enters the root; otherwise it stays where it is. |
| FsOutput.BeginLink | kernel/src/serialize/tree_fs_output.cpp:47-52 | At the root no head is opened; elsewhere one head is opened at `current/<link id>`. |
| FsOutput.EndLink | kernel/src/serialize/tree_fs_output.cpp:54-57 | Closes the innermost head; nothing else changes. |
| FsOutput.LinkBracketRestoresHeads | kernel/src/serialize/tree_fs_output.cpp:47-57 | A `begin_link`/`end_link` pair away from the root leaves the heads as they were. |
| FsOutput.BeginNode | kernel/src/serialize/tree_fs_output.cpp:59-67 | Descends into the node's group-id directory below the (entered) current directory. |
| FsOutput.EndNode | kernel/src/serialize/tree_fs_output.cpp:69-86 | Fails with `NodeWasntStarted` exactly when no node directory is open. Otherwise it writes `node_dir` = gid and `leafs_order` = the ids of the links in custom order, then moves to the parent directory. |
| FsOutput.NodeBracketRestoresPath | kernel/src/serialize/tree_fs_output.cpp:59-86 | A `begin_node`/`end_node` pair always succeeds and returns to the directory it started from. |
| FsOutput.GetFormatter | kernel/src/serialize/tree_fs_output.cpp:171-186 | Finds an installed formatter of that name exactly when one is installed for the type. |
| FsOutput.SelectActiveFormatter | kernel/src/serialize/tree_fs_output.cpp:188-194 | The choice is recorded exactly when such a formatter is installed. |
| FsOutput.GetActiveFormatter | kernel/src/serialize/tree_fs_output.cpp:171-186 | Takes the already selected formatter; else the binary one if installed; else the first installed; else none (exactly when none is installed). A found formatter is recorded as the type's choice. |
| FsOutput.ActiveFormatterSticks | kernel/src/serialize/tree_fs_output.cpp:171-194 | Once a formatter is chosen, asking again returns it and changes nothing. |
| FsOutput.FreeAmongIsLeast | kernel/src/serialize/tree_fs_output.cpp:126-133 | The reference search finds the least index in its range whose candidate name is free, and none exactly when every candidate in the range is taken. Over the full range these are `base+ext`, `base_0+ext`, ..., `base_99999+ext`. |
| FsOutput.FindFreeFilename | kernel/src/serialize/tree_fs_output.cpp:124-139 | Returns the first of `base+ext`, `base_0+ext`, ..., `base_99999+ext` that is not taken, the one the reference search finds. Fails exactly when all are taken, with `CantMakeFilename` naming the start path `objects_dir/base`. |
| FsOutput.SaveObject | kernel/src/serialize/tree_fs_output.cpp:88-169 | Without an active formatter: `MissingFormatter`, entries `fmt` = "" and `filename` = "<error>", nothing sent, and the current and objects directories are left as they were. With a formatter, the root and then the objects directory are entered first. With formatter F and every candidate name taken: `CantMakeFilename` naming `objects_dir/base`, entries F's name and "<error>", nothing sent. Otherwise: entries F's name, the first free name and the body (the node itself when F does not store nodes, else the object); one job for exactly that object, formatter, directory and file; the final wait registered once. |
| Savers.OnStart | kernel/src/serialize/tree_fs_output.cpp:227-246 | A job counts as started only when a formatter is found. Otherwise `MissingFormatter` is pushed and nothing is counted. |
| Savers.OnAck | kernel/src/serialize/tree_fs_output.cpp:255-262 | When every started save has finished, the collection is returned and emptied at once. Otherwise the reply is deferred. |
| Savers.OnFinishAsWritten | kernel/src/serialize/tree_fs_output.cpp:249-253 | As written: the last finisher empties the collection, and when no wait is pending nothing reaches a waiter. |
| Savers.ErrorLostBeforeAck | kernel/src/serialize/tree_fs_output.cpp:249-262 | Trace: a save starts, fails and finishes, then the wait arrives. The wait is answered with no errors although one failure was reported. |
| Savers.OnFinish | kernel/src/serialize/tree_fs_output.cpp:249-253 | Corrected finish handler: counts the finish and never loses an error. What was handed over plus what is still collected grows by exactly the failing result. |
| Savers.StepKeepsErrors | kernel/src/serialize/tree_fs_output.cpp:219-262 | Each message adds exactly its failures to what was handed over plus what is still collected. |
| Savers.RunKeepsErrors | kernel/src/serialize/tree_fs_output.cpp:219-262 | Over any message sequence, every failure is handed over or still collected, in arrival order. |
| Savers.AckAfterAllFinishedReportsAll | kernel/src/serialize/tree_fs_output.cpp:255-262 | A wait after all saves finished is answered at once with every failure reported so far. |
| Savers.WaitObjectsSaved | kernel/src/serialize/tree_fs_output.cpp:267-283 | The wait returns the manager's collection, or the request's own error when the request failed. |
| Savers.WaitReportsEveryFailure | kernel/src/serialize/tree_fs_output.cpp:249-283 | When all saves finished before the wait, it returns exactly the reported failures, in order, and only failures. |
| Errors.JoinFailingIsJoinLines | kernel/src/serialize/tree.cpp:41-48 | The fold is the `'\n'`-join of the messages of the failing errors, in list order. |
| Errors.JoinFailingEmpty | kernel/src/serialize/tree.cpp:41-48 | The fold is empty exactly when no failing error has a message. |
| Errors.ReduceSuccess | kernel/src/serialize/tree.cpp:41-48 | The reduced error is success exactly when no failing error contributed a message. When failures carry messages, this means exactly when nothing failed. |
| TreeSerial.SaveEncoding | kernel/src/serialize/tree.cpp:62-81 | `Binary` saves as a binary stream with the portable binary archive; anything else as text with JSON. |
| TreeSerial.LoadEncoding | kernel/src/serialize/tree.cpp:83-102 | The same choice for loading. |
| TreeSerial.EncodingsAgree | kernel/src/serialize/tree.cpp:62-102 | Save and load pick the same mode and encoding for every generic archive. |
| TreeSerial.FsErrors | kernel/src/serialize/tree.cpp:31-39 | The list reduced is the wait's errors, or the thrown error alone when the write threw. |
| TreeSerial.SaveFs | kernel/src/serialize/tree.cpp:31-49 | `save_fs` succeeds exactly when no failure carries a message. Otherwise it is a quiet error joining the failing messages, and a thrown error's message comes through. |
| TreeSerial.SaveTree | kernel/src/serialize/tree.cpp:107-121 | FS dispatches to the directory archive; other kinds go to the generic archive with their encoding. |
| TreeSerial.CallbackDoesNotMatter | kernel/src/serialize/tree.cpp:115-118 | What the user callback does never changes the returned result. |
| TreeSerial.LoadTree | kernel/src/serialize/tree.cpp:176-182 | The loaded link exactly when the load reported success; the error otherwise. |
| Bindings.MergeArchive | kernel/src/kernel/plugins_subsyst.cpp:256-274 | Adds the source's missing bindings to one archive; the destination's bindings win. |
| Bindings.MergeBindings | kernel/src/kernel/plugins_subsyst.cpp:256-274 | Missing archives are copied whole and missing bindings added. Nothing in the destination is overwritten, and the result binds exactly the union of both. |
| Bindings.AllArchivesMembers | kernel/src/kernel/plugins_subsyst.cpp:276-283 | The united archive set holds exactly what some plugin binds. |
| Bindings.AllTypesMembers | kernel/src/kernel/plugins_subsyst.cpp:276-283 | The united type set of an archive holds exactly what some plugin binds for it. |
| Bindings.MemberWithinUnion | kernel/src/kernel/plugins_subsyst.cpp:276-292 | Each plugin's bindings lie within the union. |
| Bindings.UnifyBindings | kernel/src/kernel/plugins_subsyst.cpp:248-293 | Afterwards every plugin with bindings holds every archive and type any plugin binds, and keeps its own serializers. Plugins without bindings keep none. |
| KernelTypes.FindType | kernel/src/kernel_impl.h:51-56 | Returns a registered tuple with the name when there is one, and the empty (nil) tuple otherwise. |
| KernelTypes.FindTypeInfo | kernel/src/kernel_impl.h:59-73 | Uses the descriptor's own type index when not nil, else the one registered under its name. Fails with the "not registered" error exactly when both are nil; a result is never nil. |
| KernelTypes.PertArray | kernel/src/kernel_impl.h:79-85 | Storage is keyed by the resolved type index. An existing slot is returned as is; a missing one is created empty. |
| KernelTypes.NameOnlySharesSlot | kernel/src/kernel_impl.h:59-85 | With unique registered names, a registered type and a descriptor carrying only its name share one storage slot. |
| KernelTypes.FindTypeUnique | kernel/src/kernel_impl.h:51-56 | With unique names, looking up a registered type's name returns that type. |
| Plugins.Lookup | kernel/src/kernel/plugins_subsyst.cpp:77 | Finds the position of the loaded plugin with that name, none exactly when none is loaded. |
| Plugins.Retag | kernel/src/kernel/plugins_subsyst.cpp:97-108 | The types of the named plugin now refer to its new descriptor; other types are untouched. |
| Plugins.UnifySerialization | kernel/src/kernel/plugins_subsyst.cpp:297-304 | Input bindings, then output bindings, of all loaded plugins are unified. Names, nil flags and libraries stay. |
| Plugins.UnifyKeepsNames | kernel/src/kernel/plugins_subsyst.cpp:297-304 | Unifying keeps the set of plugin names and their uniqueness. |
| Plugins.RegisterPlugin | kernel/src/kernel/plugins_subsyst.cpp:71-115 | Cases: a null descriptor returns (nil, false) and changes nothing; a new name is inserted; a nil entry is replaced by a non-nil descriptor; a handle-less entry takes a library with a handle; any other duplicate gives false and no change. "Inserted" holds exactly in the first three cases. A non-nil insertion retags its types and leaves the temporary set. |
| Plugins.SameNameUpdate | kernel/src/kernel/plugins_subsyst.cpp:82-92 | Replacing an entry by one of the same name keeps the names and their uniqueness. |
| Plugins.CleanPluginTypes | kernel/src/kernel/plugins_subsyst.cpp:117-122 | Drops exactly the types of the named plugin, and never the kernel's types. |
| Plugins.UnloadPlugin | kernel/src/kernel/plugins_subsyst.cpp:125-134 | An unregistered plugin is a no-op. Otherwise its name leaves the loaded set and its types are cleaned. |
| Plugins.RemovedNames | kernel/src/kernel/plugins_subsyst.cpp:125-134 | Removing an entry removes exactly its name. |
| Plugins.LoadPlugin | kernel/src/kernel/plugins_subsyst.cpp:143-225 | Checks in order, each failure returning its error with the registry unchanged: load failure, missing descriptor function (`BadBSplugin`), bad descriptor (`BadPluginDescriptor`), the kernel itself (quiet error), missing register function (`BadBSplugin`), refused by `register_plugin` (`PluginAlreadyRegistered`). A failing registration function is undone and gives `PluginRegisterFail`. Success, exactly when every check passes, leaves the plugin loaded. |
| Plugins.LoadPlugins | kernel/src/kernel/plugins_subsyst.cpp:227-244 | Loads the libraries in order, each from the registry the previous load left, and the i-th result is what loading the i-th library gives. Success exactly when no failure carries a message; otherwise a quiet error joining the failing messages with `'\n'`. |
| Discover.TrimIcommas | kernel/src/kernel_plugins_discover.cpp:38-47 | For one line of text: removes a leading and a trailing run of `"` and nothing else; the result neither starts nor ends with `"`. |
| Discover.Trim | kernel/src/kernel_plugins_discover.cpp:134-138 | Removes surrounding white space and nothing else. |
| Discover.TrimSetIdempotent | kernel/src/kernel_plugins_discover.cpp:38-47 | Trimming a trimmed text changes nothing. |
| Discover.SplitAt | kernel/src/kernel_plugins_discover.cpp:18-22 | Splitting yields at least one field, and no field holds the separator. |
| Discover.JoinSplit | kernel/src/kernel_plugins_discover.cpp:49-64 | Joining the fields with the separator gives back the path list. |
| Discover.ReqSplitPathIsSplit | kernel/src/kernel_plugins_discover.cpp:49-64 | Repeatedly splitting the front element at its last separator is the usual left-to-right split, keeping field order. |
| Discover.SplitPathList | kernel/src/kernel_plugins_discover.cpp:66-75 | One entry per field, in order, each quote-trimmed. |
| Discover.PushUnique | kernel/src/kernel_plugins_discover.cpp:84-94 | A present value leaves the list unchanged; otherwise it is added at the front or the back as asked. Duplicates never appear. |
| Discover.PushAll | kernel/src/kernel_plugins_discover.cpp:124-138 | Collects every value once, keeping what was already there as a prefix. |
| Discover.GetenvDef | kernel/src/kernel_plugins_discover.cpp:77-82 | The variable's value when non-empty, the default otherwise. |
| Discover.DiscoverPathsAsWritten | kernel/src/kernel_plugins_discover.cpp:124-150 | As written: configured paths, then environment paths, then the defaults, each once, with both defaults always present. |
| Discover.DotFallbackNeverTaken | kernel/src/kernel_plugins_discover.cpp:148-150 | `"."` is searched only when configured or named in the environment. With neither, exactly the defaults are searched. |
| Discover.DiscoverPaths | kernel/src/kernel_plugins_discover.cpp:124-150 | Corrected: when nothing was requested, the current directory comes first. Otherwise the requested paths come first, in order. The members are exactly requested, defaults and that fallback, with no duplicates. |
| Discover.DiscoverPathsAgree | kernel/src/kernel_plugins_discover.cpp:124-150 | Once any path was requested, the corrected and the as-written orders coincide. |

## Left out

- Actor messaging, the response promise's concurrency, mutexes and spinlocks: the savers' manager handlers are applied one message at a time, in arrival order.
- Filesystem and streams (`fs::exists`, directory creation, file streams, cereal archives, `search_files`): the files that exist are a `taken` predicate, and archive outcomes are parameters.
- Dynamic library loading in `load_plugin`: what a library exports and whether its functions succeed enter as a `Probe`.
- Environment reads: variables enter as values. An unset variable is the empty string, since `getenv` returning null is passed to `std::string` unchecked in the C++.
- Random UUIDs: replaced by an oracle returning an id that differs from the given ones.
- Path dereference (`deref_path`, `abspath`), `enter_root`/`add_head`/`enter_dir` and the heads manager are not shown in the C++: dereference is a function parameter, and the directory stack and heads are plain sequences.
- Insert policy semantics beyond the flag encoding are not shown: the single-link insert is a parameter (`Node.InsertFn`).
- `rs_reset`'s body is not shown; it is modelled from its documented behaviour.
- The iterator-based `erase(iterator<K>)` template: it passes a void result as a range end, so it is not a coherent operation.
- The order of the hashed ID view is unspecified in the C++ and is listed in custom order. Ties inside an ordered view are broken by custom order.
- Node.EraseUnique: `erase_impl`'s return value is modelled as the removed link's position, as its comment describes, rather than a count.
- Node.Rearrange: requires every key to be found, and the links found for the first `size()` keys to be a permutation of the node's links. The C++ dereferences `find`'s result unchecked, so a missing key is undefined behaviour there. The container's `rearrange` reads only the first `size()` positions and demands that they form a permutation, so other inputs are undefined behaviour as well. A key list shorter than the node is excluded for the same reason.
- PyNode.EraseIdxAsWritten: excludes the least `long`, for which `abs` is undefined behaviour in C++.
- PyNode.FindPy: the non-throwing variant, which returns null, is `Node.Search`.
- Errors.Raise: the kernel's message table is not shown, so an error's code name stands for its message.
- KernelTypes.NilPlugin: the nil plugin descriptor's name is not shown and is modelled as the empty string.
- Plugins.RegisterPlugin: the container behind `loaded_plugins_` (plugins_subsyst.h) is not part of this model. The model keeps plugins in insertion order, a new name being appended. That order decides which serializer bindings `unify_bindings` sees first, so a container ordered otherwise may differ there.
- Plugins.LoadPlugin: exceptions caught while loading are reduced to their message. A failure of `bs_register_plugin` is one flag.
- Discover: environment paths are appended after the configured ones, as the code does, not placed first as a comment suggests. Listing the plugin files in each directory (`search_files`) is left out.
- SymLink.SymOid: `data_ex` of the resolved link is a parameter.
- Links.Pointee: a symbolic link carries the object its path currently resolves to (`resolved`), because the rest of the tree is not part of a link value. `SymLink.Coherent` says when that view agrees with resolution. `SymLink.SymResetOwner` re-establishes it; copying, cloning and detaching leave the link unowned with an empty view, which is coherent; operations on other links keep it as it is.
- Node.Detach: for a symbolic link, the C++ `reset_owner` also re-checks liveness with a null owner; the model clears the owner and the view but leaves the status slots as they were (`SymLink.SymResetOwner` is the re-checking version).
- Node.EraseUnique: what `erase_impl` does with the end iterator is not defined by the code, so a miss yields `AtEnd` and no resulting node.
- Node.EqualRange: the AnyOrder form, a one-link range at a position, is not modelled; `Node.Search` covers that lookup.
- Discover.Trim: the `trim` helper is defined in bs/detail/str_utils.h, which is not part of this model. It is assumed to remove the white space of `isspace` in the C locale from both ends.
- Discover.TrimIcommas: with `match_default`, `^` and `$` also match at embedded line breaks, so quotes around inner lines of a multi-line value are removed as well; the model treats the text as one line.
- FsOutput.FindFreeFilename: paths are rendered with `/` between components; native path formatting is not modelled.
- Savers.WaitObjectsSaved: a timed-out request is one failed reply; timeouts are not modelled.
- FsOutput.SaveObject: a failure of `head()` while writing and the formatter's own output are not modelled. The save job's body entry is one log entry.
- Type descriptor equality is name equality (`operator==` is not shown).
- Python binding glue, logging, the property dictionary, serialization macros and the tests are outside the core.

## Findings

| source | as written | input that shows it | evidently intended | confidence | as-written member | corrected member |
|---|---|---|---|---|---|---|
| kernel/src/python/py_node.cpp:118-123 | `erase_idx` rejects only `abs(idx) > size`, so `idx == size` passes and erases at `end()`, which `erase_impl` does not check | empty node, `idx = 0` | reject exactly the indices `find_by_idx` rejects (`idx < -size` or `idx >= size`) | medium, not executed | PyNode.EraseIdxAsWritten | PyNode.EraseIdx |
| kernel/src/serialize/tree_fs_output.cpp:249-253 | the last finishing saver cuts the error stack and delivers it to the response promise even when no wait has created one, so those errors are dropped | one save starts, fails with "disk full" and finishes before the archive's wait arrives; the wait is answered with `[]` | keep the errors until the wait arrives, and deliver them through the promise only when one is pending | medium, not executed | Savers.ErrorLostBeforeAck | Savers.OnFinish |
| kernel/src/kernel_plugins_discover.cpp:148-150 | the `"."` fallback is tested after the defaults were pushed, so the list is never empty and the current directory is never added; had it fired, `push_unique` would have put it last | no configured paths and the plugin-path variable `BS_PLUG_PATH` unset | search the current directory first when no path is requested, as the comment says | low, not executed | Discover.DotFallbackNeverTaken | Discover.DiscoverPaths |

=== FILE: bindings.dfy ===
/** Serialization bindings of plugins and their unification
    (kernel/src/kernel/plugins_subsyst.cpp, `unify_bindings`). A plugin's
    bindings map an archive name to that archive's bindings, which map a
    type name to its serializer. */
module Bindings {
  import opened Wrappers

  type Binds = map<string, string>
  type Archives = map<string, Binds>

  /** `big` keeps every binding of `small`, with the same serializer. */
  predicate Extends(big: Archives, small: Archives) {
    forall ar :: ar in small ==> ar in big && forall t :: t in small[ar] ==> t in big[ar] && big[ar][t] == small[ar][t]
  }

  /** Adds the bindings of `src` missing in `dest`; existing ones stay. The
      result is the map union in which `dest` wins. */
  method MergeArchive(src: Binds, dest: Binds) returns (r: Binds)
    ensures r == src + dest
  {
    r := dest;
    var todo := src.Keys;
    while todo != {}
      invariant todo <= src.Keys
      invariant forall t :: t in r <==> t in dest || (t in src && t !in todo)
      invariant forall t :: t in r ==> r[t] == if t in dest then dest[t] else src[t]
      decreases todo
    {
      var t :| t in todo;
      if t !in r {
        r := r[t := src[t]];
      }
      todo := todo - {t};
    }
    assert r.Keys == (src + dest).Keys;
  }

  /** What `merge_bindings` leaves for archive `ar`: the destination's
      bindings completed with the source's missing ones. */
  function Entry(src: Archives, dest: Archives, ar: string): Binds
    requires ar in src || ar in dest
  {
    if ar in dest && ar in src then src[ar] + dest[ar]
    else if ar in dest then dest[ar]
    else src[ar]
  }

  /** `merge_bindings(src, dest)`: an archive missing in `dest` is copied
      whole; for an archive present in both, only the missing bindings are
      added. Nothing already in `dest` is ever overwritten. */
  method MergeBindings(src: Archives, dest: Archives) returns (r: Archives)
    ensures r.Keys == src.Keys + dest.Keys
    ensures forall ar :: ar in r ==> r[ar] == Entry(src, dest, ar)
    ensures forall ar :: ar in r ==>
              r[ar].Keys == (if ar in src then src[ar].Keys else {}) + (if ar in dest then dest[ar].Keys else {})
    ensures Extends(r, dest)
  {
    r := dest;
    var todo := src.Keys;
    while todo != {}
      invariant todo <= src.Keys
      invariant forall ar :: ar in r <==> ar in dest || (ar in src && ar !in todo)
      invariant forall ar :: ar in r && ar !in todo ==> r[ar] == Entry(src, dest, ar)
      invariant forall ar :: ar in r && ar in todo ==> r[ar] == dest[ar]
      decreases todo
    {
      var ar :| ar in todo;
      if ar !in r {
        r := r[ar := src[ar]];
      } else {
        var merged := MergeArchive(src[ar], r[ar]);
        r := r[ar := merged];
      }
      todo := todo - {ar};
    }
    EntryFacts(src, dest, r);
  }

  lemma EntryFacts(src: Archives, dest: Archives, r: Archives)
    requires forall ar :: ar in r <==> ar in dest || ar in src
    requires forall ar :: ar in r ==> r[ar] == Entry(src, dest, ar)
    ensures r.Keys == src.Keys + dest.Keys
    ensures forall ar :: ar in r ==>
              r[ar].Keys == (if ar in src then src[ar].Keys else {}) + (if ar in dest then dest[ar].Keys else {})
    ensures Extends(r, dest)
  {
  }

  /** Every archive some present entry of `bs` binds. */
  function AllArchives(bs: seq<Option<Archives>>): set<string>
    decreases |bs|
  {
    if |bs| == 0 then {}
    else AllArchives(bs[..|bs| - 1]) + (if bs[|bs| - 1].Some? then bs[|bs| - 1].value.Keys else {})
  }

  /** Every type some present entry of `bs` binds for archive `ar`. */
  function AllTypes(bs: seq<Option<Archives>>, ar: string): set<string>
    decreases |bs|
  {
    if |bs| == 0 then {}
    else
      var last := bs[|bs| - 1];
      AllTypes(bs[..|bs| - 1], ar) + (if last.Some? && ar in last.value then last.value[ar].Keys else {})
  }

  /** The unions are exactly what some entry binds. */
  lemma {:induction false} AllArchivesMembers(bs: seq<Option<Archives>>, ar: string)
    ensures ar in AllArchives(bs) <==> exists j :: 0 <= j < |bs| && bs[j].Some? && ar in bs[j].value
    decreases |bs|
  {
    if |bs| > 0 {
      var init := bs[..|bs| - 1];
      AllArchivesMembers(init, ar);
      assert forall j :: 0 <= j < |init| ==> init[j] == bs[j];
    }
  }

  lemma {:induction false} AllTypesMembers(bs: seq<Option<Archives>>, ar: string, t: string)
    ensures t in AllTypes(bs, ar) <==> exists j :: 0 <= j < |bs| && bs[j].Some? && ar in bs[j].value && t in bs[j].value[ar]
    decreases |bs|
  {
    if |bs| > 0 {
      var init := bs[..|bs| - 1];
      AllTypesMembers(init, ar, t);
      assert forall j :: 0 <= j < |init| ==> init[j] == bs[j];
    }
  }

  /** `m` holds every archive and, per archive, every type of `bs`. */
  predicate Covers(m: Archives, bs: seq<Option<Archives>>) {
    m.Keys == AllArchives(bs) && forall ar :: ar in m ==> m[ar].Keys == AllTypes(bs, ar)
  }

  /** One step of the first pass keeps the united map covering the prefix. */
  lemma CoversStep(prefix: seq<Option<Archives>>, b: Option<Archives>, united: Archives, next: Archives)
    requires Covers(united, prefix)
    requires b.None? ==> next == united
    requires b.Some? ==> next.Keys == b.value.Keys + united.Keys
    requires b.Some? ==> forall ar :: ar in next ==>
               next[ar].Keys == (if ar in b.value then b.value[ar].Keys else {}) + (if ar in united then united[ar].Keys else {})
    ensures Covers(next, prefix + [b])
  {
    var bs := prefix + [b];
    assert bs[..|bs| - 1] == prefix;
    assert bs[|bs| - 1] == b;
    assert AllArchives(bs) == AllArchives(prefix) + (if b.Some? then b.value.Keys else {});
    forall ar | ar in next ensures next[ar].Keys == AllTypes(bs, ar) {
      assert AllTypes(bs, ar) == AllTypes(prefix, ar) + (if b.Some? && ar in b.value then b.value[ar].Keys else {});
      if ar !in united {
        assert ar !in AllArchives(prefix);
        AllArchivesMembers(prefix, ar);
        EmptyTypes(prefix, ar);
      }
    }
  }

  /** An archive no entry binds has no types. */
  lemma {:induction false} EmptyTypes(bs: seq<Option<Archives>>, ar: string)
    requires ar !in AllArchives(bs)
    ensures AllTypes(bs, ar) == {}
    decreases |bs|
  {
    if |bs| > 0 {
      EmptyTypes(bs[..|bs| - 1], ar);
    }
  }

  lemma MemberWithinUnion(bs: seq<Option<Archives>>, i: nat)
    requires i < |bs| && bs[i].Some?
    ensures bs[i].value.Keys <= AllArchives(bs)
    ensures forall ar :: ar in bs[i].value ==> bs[i].value[ar].Keys <= AllTypes(bs, ar)
  {
    forall ar | ar in bs[i].value
      ensures ar in AllArchives(bs) && bs[i].value[ar].Keys <= AllTypes(bs, ar)
    {
      AllArchivesMembers(bs, ar);
      forall t | t in bs[i].value[ar] ensures t in AllTypes(bs, ar) {
        AllTypesMembers(bs, ar, t);
      }
    }
  }

  /** `unify_bindings`: first every plugin's bindings are merged into one
      united map, in container order; then the united map is merged into
      every plugin's bindings. Afterwards each plugin with bindings holds
      every archive and type any plugin binds, and keeps its own serializers. */
  method UnifyBindings(bs: seq<Option<Archives>>) returns (r: seq<Option<Archives>>)
    ensures |r| == |bs|
    ensures forall i :: 0 <= i < |bs| ==> (r[i].Some? <==> bs[i].Some?)
    ensures forall i :: 0 <= i < |bs| && bs[i].Some? ==> Extends(r[i].value, bs[i].value)
    ensures forall i :: 0 <= i < |bs| && bs[i].Some? ==> Covers(r[i].value, bs)
  {
    var united: Archives := map[];
    var i := 0;
    while i < |bs|
      invariant 0 <= i <= |bs|
      invariant Covers(united, bs[..i])
    {
      assert bs[..i + 1] == bs[..i] + [bs[i]];
      var before := united;
      if bs[i].Some? {
        united := MergeBindings(bs[i].value, united);
      }
      CoversStep(bs[..i], bs[i], before, united);
      i := i + 1;
    }
    assert bs[..|bs|] == bs;
    r := [];
    i := 0;
    while i < |bs|
      invariant 0 <= i <= |bs|
      invariant |r| == i
      invariant forall j :: 0 <= j < i ==> (r[j].Some? <==> bs[j].Some?)
      invariant forall j :: 0 <= j < i && bs[j].Some? ==> Extends(r[j].value, bs[j].value)
      invariant forall j :: 0 <= j < i && bs[j].Some? ==> Covers(r[j].value, bs)
    {
      if bs[i].Some? {
        MemberWithinUnion(bs, i);
        var merged := MergeBindings(united, bs[i].value);
        r := r + [Some(merged)];
      } else {
        r := r + [None];
      }
      i := i + 1;
    }
  }
}

=== FILE: discover.dfy ===
/** Plugin search-path discovery (kernel/src/kernel_plugins_discover.cpp):
    splitting a path list at the platform separator, trimming quotes,
    collecting paths without duplicates, and the order in which configured,
    environment and default paths are searched. Configuration values and
    environment variables enter as parameters; listing directories is not
    part of this model. */
module Discover {
  import opened Wrappers

  datatype Platform = Unix | Windows

  /** `SPL` */
  function Separator(p: Platform): char {
    if p == Unix then ':' else ';'
  }

  // -----------------------------------------------------------------------
  //  Trimming

  /** The length of the leading run of characters from `strip`. */
  function LeadingRun(s: string, strip: set<char>): (n: nat)
    ensures n <= |s|
    ensures forall k :: 0 <= k < n ==> s[k] in strip
    ensures n < |s| ==> s[n] !in strip
    decreases |s|
  {
    if |s| > 0 && s[0] in strip then
      var m := LeadingRun(s[1..], strip);
      assert forall k :: 1 <= k <= m ==> s[k] == s[1..][k - 1];
      1 + m
    else 0
  }

  /** Where the trailing run of `strip` characters starts, looking no further
      left than `lo`; everything from `j` on is already known to be in it. */
  function TrailingStart(s: string, lo: nat, j: nat, strip: set<char>): (e: nat)
    requires lo <= j <= |s|
    requires forall k :: j <= k < |s| ==> s[k] in strip
    ensures lo <= e <= j
    ensures forall k :: e <= k < |s| ==> s[k] in strip
    ensures e > lo ==> s[e - 1] !in strip
    decreases j
  {
    if j > lo && s[j - 1] in strip then TrailingStart(s, lo, j - 1, strip) else j
  }

  /** `s` with the leading and the trailing run of `strip` characters
      removed. */
  function TrimSet(s: string, strip: set<char>): (r: string)
    ensures TrimmedOf(r, s, strip)
    ensures |r| > 0 ==> r[0] !in strip && r[|r| - 1] !in strip
  {
    var i := LeadingRun(s, strip);
    var j := TrailingStart(s, i, |s|, strip);
    assert TrimmedAt(s[i..j], s, i, strip);
    s[i..j]
  }

  /** `r` is `s` with a run of `strip` characters removed at each end. */
  predicate TrimmedOf(r: string, s: string, strip: set<char>) {
    exists i :: 0 <= i <= |s| && TrimmedAt(r, s, i, strip)
  }

  /** ... the leading run being `i` characters long. */
  predicate TrimmedAt(r: string, s: string, i: int, strip: set<char>) {
    0 <= i <= i + |r| <= |s| && r == s[i..i + |r|]
    && (forall k :: 0 <= k < i ==> s[k] in strip)
    && (forall k :: i + |r| <= k < |s| ==> s[k] in strip)
  }

  const Quotes: set<char> := {'"'}

  /** The white space of `std::isspace` in the C locale. */
  const Spaces: set<char> := {' ', '\t', '\n', '\r', '\U{000B}', '\U{000C}'}

  /** `trim_icommas`: removes the leading and the trailing run of double
      quotes and nothing else. The text is taken as one line: the regular
      expression's `^` and `$` also match around embedded line breaks, which
      this does not model. */
  function TrimIcommas(s: string): (r: string)
    ensures TrimmedOf(r, s, Quotes)
    ensures |r| > 0 ==> r[0] != '"' && r[|r| - 1] != '"'
  {
    TrimSet(s, Quotes)
  }

  /** `trim`: removes surrounding white space. */
  function Trim(s: string): (r: string)
    ensures TrimmedOf(r, s, Spaces)
    ensures |r| > 0 ==> r[0] !in Spaces && r[|r| - 1] !in Spaces
  {
    TrimSet(s, Spaces)
  }

  /** Trimming is idempotent: a trimmed text has nothing left to strip. */
  lemma {:induction false} TrimSetIdempotent(s: string, strip: set<char>)
    ensures TrimSet(TrimSet(s, strip), strip) == TrimSet(s, strip)
  {
    var t := TrimSet(s, strip);
    assert LeadingRun(t, strip) == 0;
    assert TrailingStart(t, 0, |t|, strip) == |t|;
    assert t[0..|t|] == t;
  }

  // -----------------------------------------------------------------------
  //  Splitting

  /** The position of the last `sep` in `s`. */
  function LastIndex(s: string, sep: char): (r: Option<nat>)
    ensures r.Some? ==> r.value < |s| && s[r.value] == sep && forall k :: r.value < k < |s| ==> s[k] != sep
    ensures r.None? ==> forall k :: 0 <= k < |s| ==> s[k] != sep
    decreases |s|
  {
    if |s| == 0 then None
    else if s[|s| - 1] == sep then Some(|s| - 1)
    else LastIndex(s[..|s| - 1], sep)
  }

  /** `req_split_path`: as long as the first element holds a separator, it
      is replaced by the text before its last separator and the text after
      it (the greedy `^(.*)[SPL](.*)$` split); the rest stays as it is. */
  function ReqSplitPath(path: seq<string>, sep: char): seq<string>
    decreases if |path| == 0 then 0 else |path[0]|
  {
    if |path| == 0 then path
    else
      match LastIndex(path[0], sep)
      case None => path
      case Some(k) => ReqSplitPath([path[0][..k], path[0][k + 1..]] + path[1..], sep)
  }

  /** The position of the first `sep` in `s`. */
  function FirstIndex(s: string, sep: char): (r: Option<nat>)
    ensures r.Some? ==> r.value < |s| && s[r.value] == sep && forall k :: 0 <= k < r.value ==> s[k] != sep
    ensures r.None? ==> forall k :: 0 <= k < |s| ==> s[k] != sep
    decreases |s|
  {
    if |s| == 0 then None
    else if s[0] == sep then Some(0)
    else match FirstIndex(s[1..], sep)
      case None => None
      case Some(k) => Some(k + 1)
  }

  /** The usual split at every separator, left to right, keeping empty
      fields. */
  function SplitAt(s: string, sep: char): (r: seq<string>)
    ensures |r| > 0
    ensures forall i, k :: 0 <= i < |r| && 0 <= k < |r[i]| ==> r[i][k] != sep
    decreases |s|
  {
    match FirstIndex(s, sep)
    case None => [s]
    case Some(k) => [s[..k]] + SplitAt(s[k + 1..], sep)
  }

  /** The fields joined back with the separator. */
  function Join(fields: seq<string>, sep: char): string
    decreases |fields|
  {
    if |fields| == 0 then ""
    else if |fields| == 1 then fields[0]
    else fields[0] + [sep] + Join(fields[1..], sep)
  }

  /** Splitting and joining give back the path list. */
  lemma {:induction false} JoinSplit(s: string, sep: char)
    ensures Join(SplitAt(s, sep), sep) == s
    decreases |s|
  {
    match FirstIndex(s, sep)
    case None =>
    case Some(k) =>
      var rest := SplitAt(s[k + 1..], sep);
      JoinSplit(s[k + 1..], sep);
      assert ([s[..k]] + rest)[1..] == rest;
      assert s == s[..k] + [sep] + s[k + 1..];
  }

  lemma {:induction false} FirstIndexIs(s: string, sep: char, k: nat)
    requires k < |s| && s[k] == sep && forall j :: 0 <= j < k ==> s[j] != sep
    ensures FirstIndex(s, sep) == Some(k)
  {
  }

  lemma {:induction false} SplitAtUnfold(s: string, sep: char, k: nat)
    requires FirstIndex(s, sep) == Some(k)
    ensures SplitAt(s, sep) == [s[..k]] + SplitAt(s[k + 1..], sep)
  {
  }

  /** Appending a field without separator to a text adds one last field. */
  lemma {:induction false} SplitAtSnoc(a: string, sep: char, b: string)
    requires forall k :: 0 <= k < |b| ==> b[k] != sep
    ensures SplitAt(a + [sep] + b, sep) == SplitAt(a, sep) + [b]
    decreases |a|
  {
    var s := a + [sep] + b;
    var fa := FirstIndex(a, sep);
    if fa.None? {
      FirstIndexIs(s, sep, |a|);
      assert s[..|a|] == a && s[|a| + 1..] == b;
      assert FirstIndex(b, sep).None?;
      SplitAtUnfold(s, sep, |a|);
    } else {
      var j := fa.value;
      FirstIndexIs(s, sep, j);
      assert s[..j] == a[..j];
      assert s[j + 1..] == a[j + 1..] + [sep] + b;
      calc {
        SplitAt(s, sep);
        { SplitAtUnfold(s, sep, j); }
        [a[..j]] + SplitAt(a[j + 1..] + [sep] + b, sep);
        { SplitAtSnoc(a[j + 1..], sep, b); }
        [a[..j]] + (SplitAt(a[j + 1..], sep) + [b]);
        ([a[..j]] + SplitAt(a[j + 1..], sep)) + [b];
        { SplitAtUnfold(a, sep, j); }
        SplitAt(a, sep) + [b];
      }
    }
  }

  /** One step of `req_split_path` on a front element with a separator. */
  lemma {:induction false} ReqSplitStep(s: string, sep: char, rest: seq<string>, k: nat)
    requires LastIndex(s, sep) == Some(k)
    ensures ReqSplitPath([s] + rest, sep) == ReqSplitPath([s[..k], s[k + 1..]] + rest, sep)
  {
    var path := [s] + rest;
    assert path[0] == s && path[1..] == rest;
  }

  /** A front element without separator ends the recursion. */
  lemma {:induction false} ReqSplitDone(s: string, sep: char, rest: seq<string>)
    requires LastIndex(s, sep).None?
    ensures ReqSplitPath([s] + rest, sep) == [s] + rest
    ensures SplitAt(s, sep) == [s]
  {
    var path := [s] + rest;
    assert path[0] == s;
    assert FirstIndex(s, sep).None?;
  }

  /** Splitting the front element recursively at its last separator is the
      usual left-to-right split. */
  lemma {:induction false} ReqSplitPathIsSplit(s: string, sep: char, rest: seq<string>)
    ensures ReqSplitPath([s] + rest, sep) == SplitAt(s, sep) + rest
    decreases |s|
  {
    var li := LastIndex(s, sep);
    if li.None? {
      ReqSplitDone(s, sep, rest);
    } else {
      var k := li.value;
      var a, b := s[..k], s[k + 1..];
      assert s == a + [sep] + b;
      calc {
        ReqSplitPath([s] + rest, sep);
        { ReqSplitStep(s, sep, rest, k); assert [a, b] + rest == [a] + ([b] + rest); }
        ReqSplitPath([a] + ([b] + rest), sep);
        { ReqSplitPathIsSplit(a, sep, [b] + rest); }
        SplitAt(a, sep) + ([b] + rest);
        (SplitAt(a, sep) + [b]) + rest;
        { SplitAtSnoc(a, sep, b); }
        SplitAt(s, sep) + rest;
      }
    }
  }

  /** `split_path_list`: every field of the list, quote-trimmed, in order. */
  function SplitPathList(s: string, sep: char): (r: seq<string>)
    ensures |r| == |SplitAt(s, sep)|
    ensures forall i :: 0 <= i < |r| ==> r[i] == TrimIcommas(SplitAt(s, sep)[i])
  {
    var fields := ReqSplitPath([s], sep);
    ReqSplitPathIsSplit(s, sep, []);
    assert [s] + [] == [s];
    assert fields == SplitAt(s, sep) + [] == SplitAt(s, sep);
    seq(|fields|, i requires 0 <= i < |fields| => TrimIcommas(fields[i]))
  }

  // -----------------------------------------------------------------------
  //  Collecting paths

  predicate NoDup(s: seq<string>) {
    forall i, j :: 0 <= i < j < |s| ==> s[i] != s[j]
  }

  /** `push_unique`: a value already present is skipped; otherwise it is
      added at the front or at the back. */
  function PushUnique(dest: seq<string>, v: string, front: bool): (r: seq<string>)
    ensures forall x :: x in r <==> x in dest || x == v
    ensures NoDup(dest) ==> NoDup(r)
    ensures v in dest ==> r == dest
    ensures v !in dest && !front ==> r == dest + [v]
    ensures v !in dest && front ==> r == [v] + dest
  {
    if v in dest then dest else if front then [v] + dest else dest + [v]
  }

  /** Pushes every value at the back, in order. */
  function PushAll(dest: seq<string>, vs: seq<string>): (r: seq<string>)
    ensures forall x :: x in r <==> x in dest || x in vs
    ensures NoDup(dest) ==> NoDup(r)
    ensures |dest| <= |r| && r[..|dest|] == dest
    decreases |vs|
  {
    if |vs| == 0 then dest
    else
      var d := PushUnique(dest, vs[0], false);
      var r := PushAll(d, vs[1..]);
      assert forall x :: x in vs <==> x == vs[0] || x in vs[1..];
      assert r[..|dest|] == r[..|d|][..|dest|];
      r
  }

  /** `getenv_def`: the variable's value, or the default when it is empty. */
  function GetenvDef(value: string, def: string): (r: string)
    ensures |value| > 0 ==> r == value
    ensures |value| == 0 ==> r == def
  {
    if |value| > 0 then value else def
  }

  /** The fallback directories of each platform; `env` maps an environment
      variable's name to its value (empty when unset). */
  function Defaults(p: Platform, env: string -> string): seq<string> {
    if p == Unix then
      [GetenvDef(env("HOME"), ".") + "/.blue-sky/plugins", "/usr/share/blue-sky/plugins"]
    else
      [GetenvDef(env("ALLUSERSPROFILE"), ".") + "\\Application Data\\blue-sky\\plugins",
       GetenvDef(env("APPDATA"), ".") + "\\blue-sky\\plugins"]
  }

  /** The configured and environment paths, in that order, without duplicates. */
  function Requested(p: Platform, conf: seq<string>, envPaths: Option<string>): (r: seq<string>)
    ensures NoDup(r)
  {
    var fromConf := PushAll([], conf);
    if envPaths.Some? then PushAll(fromConf, SplitPathList(Trim(envPaths.value), Separator(p))) else fromConf
  }

  /** Pushes the two defaults at the back. */
  function PushDefaults(paths: seq<string>, d: seq<string>): (r: seq<string>)
    requires |d| == 2
    ensures NoDup(paths) ==> NoDup(r)
    ensures forall x :: x in r <==> x in paths || x in d
    ensures |paths| <= |r| && r[..|paths|] == paths
  {
    var p1 := PushUnique(paths, d[0], false);
    var r := PushUnique(p1, d[1], false);
    assert r[..|paths|] == r[..|p1|][..|paths|];
    r
  }

  /** `discover_plugins()`'s search paths as written: configured paths,
      then environment paths, then the defaults, each added once; `"."` is
      added when the list is still empty afterwards. */
  function DiscoverPathsAsWritten(p: Platform, conf: seq<string>, envPaths: Option<string>, env: string -> string): (r: seq<string>)
    ensures NoDup(r)
    ensures forall x :: x in Defaults(p, env) ==> x in r
    ensures var req := Requested(p, conf, envPaths); |req| <= |r| && r[..|req|] == req
  {
    var paths := PushDefaults(Requested(p, conf, envPaths), Defaults(p, env));
    if |paths| == 0 then PushUnique(paths, ".", false) else paths
  }

  /** Neither default is `"."`: both end in a plugin directory name. */
  lemma DefaultsNotDot(p: Platform, env: string -> string)
    ensures "." !in Defaults(p, env)
  {
    var d := Defaults(p, env);
    assert |d[0]| > 1 && |d[1]| > 1;
  }

  /** The emptiness test comes after the defaults, which are always added,
      so the fallback never adds `"."`: the current directory is searched
      only when the configuration or the environment names it, and with
      neither of them nothing but the defaults is searched. */
  lemma DotFallbackNeverTaken(p: Platform, conf: seq<string>, envPaths: Option<string>, env: string -> string)
    ensures var r := DiscoverPathsAsWritten(p, conf, envPaths, env);
            "." in r ==> "." in Requested(p, conf, envPaths)
    ensures forall x :: x in DiscoverPathsAsWritten(p, [], None, env) <==> x in Defaults(p, env)
  {
    DefaultsNotDot(p, env);
    assert Requested(p, [], None) == [];
  }

  /** The search paths with the fallback the code describes: when neither
      the configuration nor the environment names a path, the current
      directory is searched first, before the defaults. */
  function DiscoverPaths(p: Platform, conf: seq<string>, envPaths: Option<string>, env: string -> string): (r: seq<string>)
    ensures NoDup(r)
    ensures var req := Requested(p, conf, envPaths);
            |req| > 0 ==> |req| <= |r| && r[..|req|] == req
    ensures |Requested(p, conf, envPaths)| == 0 ==> |r| > 0 && r[0] == "."
    ensures forall x :: x in r <==> x in Requested(p, conf, envPaths) || x in Defaults(p, env)
                                    || (x == "." && |Requested(p, conf, envPaths)| == 0)
  {
    var req := Requested(p, conf, envPaths);
    var start := if |req| == 0 then ["."] else req;
    var r := PushDefaults(start, Defaults(p, env));
    assert r[..|start|] == start;
    r
  }

  /** The correction changes nothing once a path was requested. */
  lemma DiscoverPathsAgree(p: Platform, conf: seq<string>, envPaths: Option<string>, env: string -> string)
    requires |Requested(p, conf, envPaths)| > 0
    ensures DiscoverPaths(p, conf, envPaths, env) == DiscoverPathsAsWritten(p, conf, envPaths, env)
  {
  }
}

=== FILE: errors.dfy ===
/** The kernel's error values and the one reduction it applies to a list of
    them: both `save_fs` (kernel/src/serialize/tree.cpp) and `load_plugins`
    (kernel/src/kernel/plugins_subsyst.cpp) fold a list of errors into a
    single message by joining the messages of the failing ones with '\n'. */
module Errors {

  /** Error codes the modelled core raises; `OK` is the code of success. */
  datatype Code =
    | OK
    | KeyMismatch
    | UnboundSymLink
    | LinkExpired
    | MissingFormatter
    | CantMakeFilename
    | NodeWasntStarted
    | PluginAlreadyRegistered
    | BadBSplugin
    | BadPluginDescriptor
    | PluginRegisterFail
    | Generic   // `error(msg)`: a failing error built from a message alone
    | Quiet   // `error::quiet(msg)`: a failing error carrying only a message

  datatype Error = Error(code: Code, what: string) {
    /** `bool(er)` in C++: true when the error is a failure. */
    predicate Failed() {
      code != OK
    }
  }

  const Success: Error := Error(OK, "")

  function QuietError(msg: string): Error {
    Error(Quiet, msg)
  }

  /** An error raised from a code. The kernel's message table is not part of
      this model; the code's name stands for its message. */
  function Raise(c: Code): (e: Error)
    requires c != OK
    ensures e.code == c && e.Failed() && |e.what| > 0
  {
    var name := match c
      case KeyMismatch => "KeyMismatch"
      case UnboundSymLink => "UnboundSymLink"
      case LinkExpired => "LinkExpired"
      case MissingFormatter => "MissingFormatter"
      case CantMakeFilename => "CantMakeFilename"
      case NodeWasntStarted => "NodeWasntStarted"
      case PluginAlreadyRegistered => "PluginAlreadyRegistered"
      case BadBSplugin => "BadBSplugin"
      case BadPluginDescriptor => "BadPluginDescriptor"
      case PluginRegisterFail => "PluginRegisterFail"
      case Generic => "Generic"
      case _ => "Quiet";
    Error(c, name)
  }

  /** One step of the fold: `if(!acc.empty()) acc += '\n'; acc += msg;` */
  function AppendMessage(acc: string, msg: string): string {
    (if |acc| == 0 then acc else acc + "\n") + msg
  }

  /** The left fold over `errs` that adds the message of every failing error. */
  function JoinFailing(errs: seq<Error>): string
    decreases |errs|
  {
    if |errs| == 0 then ""
    else
      var acc := JoinFailing(errs[..|errs| - 1]);
      var e := errs[|errs| - 1];
      if e.Failed() then AppendMessage(acc, e.what) else acc
  }

  /** The reduced error: success when nothing was accumulated, otherwise a
      quiet error carrying the joined messages. */
  function Reduce(errs: seq<Error>): Error {
    var msg := JoinFailing(errs);
    if |msg| == 0 then Success else QuietError(msg)
  }

  // ---------------------------------------------------------------------
  // Reference definitions: the messages of the failing errors, and the
  // usual '\n'-separated join of a list of strings.

  function FailingMessages(errs: seq<Error>): seq<string>
    decreases |errs|
  {
    if |errs| == 0 then []
    else
      var e := errs[|errs| - 1];
      FailingMessages(errs[..|errs| - 1]) + (if e.Failed() then [e.what] else [])
  }

  function JoinLines(msgs: seq<string>): string
    decreases |msgs|
  {
    if |msgs| == 0 then ""
    else if |msgs| == 1 then msgs[0]
    else JoinLines(msgs[..|msgs| - 1]) + "\n" + msgs[|msgs| - 1]
  }

  predicate AllNonEmpty(msgs: seq<string>) {
    forall i :: 0 <= i < |msgs| ==> |msgs[i]| > 0
  }

  lemma {:induction false} JoinLinesNonEmpty(msgs: seq<string>)
    requires AllNonEmpty(msgs)
    ensures |JoinLines(msgs)| == 0 <==> |msgs| == 0
    decreases |msgs|
  {
    if |msgs| > 1 {
      JoinLinesNonEmpty(msgs[..|msgs| - 1]);
    }
  }

  /** When every failing error has a message, the fold is exactly the
      '\n'-join of the failing messages in list order. */
  lemma {:induction false} JoinFailingIsJoinLines(errs: seq<Error>)
    requires AllNonEmpty(FailingMessages(errs))
    ensures JoinFailing(errs) == JoinLines(FailingMessages(errs))
    decreases |errs|
  {
    if |errs| > 0 {
      var init := errs[..|errs| - 1];
      var e := errs[|errs| - 1];
      var ms := FailingMessages(init);
      assert FailingMessages(errs) == ms + (if e.Failed() then [e.what] else []);
      assert AllNonEmpty(ms) by {
        forall i | 0 <= i < |ms| ensures |ms[i]| > 0 {
          assert ms[i] == FailingMessages(errs)[i];
        }
      }
      JoinFailingIsJoinLines(init);
      if e.Failed() {
        var ms' := ms + [e.what];
        assert ms'[..|ms'| - 1] == ms;
        JoinLinesNonEmpty(ms);
        if |ms| == 0 {
          assert JoinLines(ms') == e.what;
        } else {
          assert JoinLines(ms') == JoinLines(ms) + "\n" + e.what;
        }
        assert JoinFailing(errs) == AppendMessage(JoinFailing(init), e.what);
      } else {
        assert FailingMessages(errs) == ms;
        assert JoinFailing(errs) == JoinFailing(init);
      }
    }
  }

  /** The fold is empty exactly when every failing error has an empty message. */
  lemma {:induction false} JoinFailingEmpty(errs: seq<Error>)
    ensures |JoinFailing(errs)| == 0 <==> forall i :: 0 <= i < |errs| && errs[i].Failed() ==> |errs[i].what| == 0
    decreases |errs|
  {
    if |errs| > 0 {
      var init := errs[..|errs| - 1];
      JoinFailingEmpty(init);
      assert forall i :: 0 <= i < |init| ==> init[i] == errs[i];
      var e := errs[|errs| - 1];
      if e.Failed() {
        assert JoinFailing(errs) == AppendMessage(JoinFailing(init), e.what);
      } else {
        assert JoinFailing(errs) == JoinFailing(init);
      }
    }
  }

  /** The reduced result is success exactly when no failing error contributed
      a message; in particular, when failing errors carry messages, it is
      success exactly when no error failed. */
  lemma ReduceSuccess(errs: seq<Error>)
    ensures !Reduce(errs).Failed() <==> forall i :: 0 <= i < |errs| && errs[i].Failed() ==> |errs[i].what| == 0
    ensures (forall i :: 0 <= i < |errs| && errs[i].Failed() ==> |errs[i].what| > 0) ==>
              (!Reduce(errs).Failed() <==> forall i :: 0 <= i < |errs| ==> !errs[i].Failed())
  {
    JoinFailingEmpty(errs);
  }
}

=== FILE: fs_output.dfy ===
/** The filesystem tree archive writer (kernel/src/serialize/tree_fs_output.cpp).
    The directory layout is a stack of path components; the archive's JSON
    output is a log of written entries; the filesystem is a predicate
    telling which names are taken in the objects directory; the savers'
    manager actor receives the save jobs listed in `sent` (its state machine
    is module Savers). */
module FsOutput {
  import opened Wrappers
  import Errors
  import Strings
  import ObjBase
  import Links
  import Node

  /** A filesystem path as its components; `[]` is the empty path. */
  type Path = seq<string>

  /** Entries the archive writes. */
  datatype Entry =
    | NodeDir(gid: string)
    | LeafsOrder(ids: seq<string>)
    | Fmt(name: string)
    | Filename(name: string)
    | NodeBody
    | ObjectBody

  /** A job sent to the savers' manager: save `obj` with formatter `fmt` to `file`. */
  datatype SaveJob = SaveJob(obj: ObjBase.Obj, fmt: string, dir: Path, file: string)

  /** `object_formatter`: its name and whether it stores a node's leafs itself. */
  datatype Formatter = Formatter(name: string, storesNode: bool)

  /** Installed formatters per object type, in listing order. */
  type Installed = map<string, seq<Formatter>>

  datatype Archive = Archive(
    root: Path,
    cur: Path,
    heads: seq<Path>,
    objectsDir: string,
    objectsPath: Path,
    active: map<string, string>,
    hasWaitDeferred: bool,
    waits: nat,
    log: seq<Entry>,
    sent: seq<SaveJob>)

  /** `p` is `root` or a directory below it. */
  predicate Under(p: Path, root: Path) {
    |root| <= |p| && p[..|root|] == root
  }

  /** The root directory is a real directory, the current directory is unset
      or inside the root, and the deferred wait is registered once the flag
      is set and never before. */
  predicate Valid(a: Archive) {
    |a.root| > 0 && (a.cur == [] || Under(a.cur, a.root))
    && a.waits == (if a.hasWaitDeferred then 1 else 0)
  }

  function NewArchive(root: Path, objectsDir: string): (a: Archive)
    requires |root| > 0
    ensures Valid(a) && a.cur == [] && a.heads == [] && a.log == [] && a.sent == []
  {
    Archive(root, [], [], objectsDir, [], map[], false, 0, [], [])
  }

  // -----------------------------------------------------------------------
  //  Directory stack

  /** `enter_root()`: an archive that has not entered any directory yet
      enters the root; otherwise the current directory stays. */
  function EnterRoot(a: Archive): (r: Archive)
    ensures r == a.(cur := r.cur)
    ensures a.cur == [] ==> r.cur == a.root
    ensures a.cur != [] ==> r.cur == a.cur
  {
    if a.cur == [] then a.(cur := a.root) else a
  }

  /** `begin_link(L)`: at the root no head is opened; elsewhere a head is
      opened at `current/<link id>`. */
  function BeginLink(a: Archive, linkId: string): (r: Archive)
    ensures r.cur == EnterRoot(a).cur
    ensures r.cur == a.root ==> r.heads == a.heads
    ensures r.cur != a.root ==> r.heads == a.heads + [r.cur + [linkId]]
    ensures r.log == a.log && r.sent == a.sent && r.root == a.root && r.waits == a.waits
  {
    var e := EnterRoot(a);
    if e.cur == e.root then e
    else e.(heads := e.heads + [e.cur + [linkId]])
  }

  /** `end_link()`: closes the innermost head. The heads manager is not
      part of this model; an empty stack stays empty. */
  function EndLink(a: Archive): (r: Archive)
    ensures |a.heads| > 0 ==> r.heads == a.heads[..|a.heads| - 1]
    ensures r == a.(heads := r.heads)
  {
    if |a.heads| == 0 then a else a.(heads := a.heads[..|a.heads| - 1])
  }

  /** A link opened away from the root is closed by `end_link`. */
  lemma LinkBracketRestoresHeads(a: Archive, linkId: string)
    requires EnterRoot(a).cur != a.root
    ensures EndLink(BeginLink(a, linkId)).heads == a.heads
  {
    var b := BeginLink(a, linkId);
    assert b.heads[..|b.heads| - 1] == a.heads;
  }

  /** `begin_node(N)`: enters the root if needed, then descends into the
      node's directory, named by its group id. */
  function BeginNode(a: Archive, gid: string): (r: Archive)
    ensures r.cur == EnterRoot(a).cur + [gid]
    ensures r == a.(cur := r.cur)
    ensures Valid(a) ==> Valid(r)
  {
    var e := EnterRoot(a);
    e.(cur := e.cur + [gid])
  }

  /** `end_node(N)`: fails with `NodeWasntStarted` unless a node directory
      is open; otherwise writes the node's directory and its links' ids in
      custom order, then returns to the parent directory. */
  function EndNode(a: Archive, n: Node.Node, gid: string): (r: Result<Archive, Errors.Error>)
    ensures r.Err? <==> a.cur == [] || a.cur == a.root
    ensures r.Err? ==> r.error.code == Errors.NodeWasntStarted
    ensures r.Ok? ==> r.value.cur == a.cur[..|a.cur| - 1]
    ensures r.Ok? ==>
              exists ids :: r.value.log == a.log + [NodeDir(gid), LeafsOrder(ids)]
                && |ids| == Node.Size(n)
                && forall i :: 0 <= i < |ids| ==> ids[i] == n.links[i].id
    ensures r.Ok? ==> r.value == a.(cur := r.value.cur, log := r.value.log)
    ensures r.Ok? && Valid(a) ==> Valid(r.value)
  {
    if a.cur == [] || a.cur == a.root then Err(Errors.Raise(Errors.NodeWasntStarted))
    else
      var ids := seq(|n.links|, i requires 0 <= i < |n.links| => n.links[i].id);
      Ok(a.(cur := a.cur[..|a.cur| - 1], log := a.log + [NodeDir(gid), LeafsOrder(ids)]))
  }

  /** A node's begin/end pair always succeeds and comes back to the
      directory `begin_node` started from (the root, for a fresh archive). */
  lemma NodeBracketRestoresPath(a: Archive, n: Node.Node, gid: string)
    requires Valid(a)
    ensures EndNode(BeginNode(a, gid), n, gid).Ok?
    ensures EndNode(BeginNode(a, gid), n, gid).value.cur == EnterRoot(a).cur
  {
    var b := BeginNode(a, gid);
    assert |b.cur| > |a.root|;
    assert b.cur[..|b.cur| - 1] == EnterRoot(a).cur;
  }

  // -----------------------------------------------------------------------
  //  Formatters

  /** `get_formatter(type, name)`: the installed formatter with that name. */
  function GetFormatter(inst: Installed, typeId: string, name: string): (r: Option<Formatter>)
    ensures r.Some? <==> typeId in inst && exists i :: 0 <= i < |inst[typeId]| && inst[typeId][i].name == name
    ensures r.Some? ==> r.value.name == name && r.value in inst[typeId]
  {
    if typeId !in inst then None else FirstNamed(inst[typeId], name)
  }

  function FirstNamed(fs: seq<Formatter>, name: string): (r: Option<Formatter>)
    ensures r.Some? <==> exists i :: 0 <= i < |fs| && fs[i].name == name
    ensures r.Some? ==> r.value.name == name && r.value in fs
    decreases |fs|
  {
    if |fs| == 0 then None
    else if fs[0].name == name then Some(fs[0])
    else
      var r := FirstNamed(fs[1..], name);
      assert forall i :: 1 <= i < |fs| ==> fs[i] == fs[1..][i - 1];
      r
  }

  /** `select_active_formatter(type, name)`: records the choice only when
      such a formatter is installed. */
  function SelectActiveFormatter(active: map<string, string>, inst: Installed, typeId: string, name: string): (r: (map<string, string>, bool))
    ensures r.1 <==> GetFormatter(inst, typeId, name).Some?
    ensures r.1 ==> r.0 == active[typeId := name]
    ensures !r.1 ==> r.0 == active
  {
    if GetFormatter(inst, typeId, name).Some? then (active[typeId := name], true) else (active, false)
  }

  /** `get_active_formatter(type)`: the formatter already selected for the
      type; else the binary formatter `bin`, if installed, becomes the
      selection; else the first installed one; else none. */
  function GetActiveFormatter(active: map<string, string>, inst: Installed, typeId: string, bin: string): (r: (map<string, string>, Option<Formatter>))
    ensures typeId in active ==> r == (active, GetFormatter(inst, typeId, active[typeId]))
    ensures typeId !in active ==>
              (r.1.None? <==> typeId !in inst || |inst[typeId]| == 0)
    ensures typeId !in active && GetFormatter(inst, typeId, bin).Some? ==> r.1 == GetFormatter(inst, typeId, bin)
    ensures typeId !in active && GetFormatter(inst, typeId, bin).None? && r.1.Some? ==> r.1 == Some(inst[typeId][0])
    ensures r.1.Some? ==> r.0 == active[typeId := r.1.value.name] && r.1.value in inst[typeId]
    ensures r.1.None? ==> r.0 == active
  {
    if typeId in active then (active, GetFormatter(inst, typeId, active[typeId]))
    else
      var (a1, ok1) := SelectActiveFormatter(active, inst, typeId, bin);
      if ok1 then (a1, GetFormatter(inst, typeId, bin))
      else if typeId in inst && |inst[typeId]| > 0 then
        var first := inst[typeId][0].name;
        assert inst[typeId][0].name == first;
        var (a2, ok2) := SelectActiveFormatter(active, inst, typeId, first);
        (a2, GetFormatter(inst, typeId, first))
      else (active, None)
  }

  /** Once chosen, a formatter stays chosen: asking again changes nothing. */
  lemma ActiveFormatterSticks(active: map<string, string>, inst: Installed, typeId: string, bin: string)
    requires GetActiveFormatter(active, inst, typeId, bin).1.Some?
    ensures var (a1, f1) := GetActiveFormatter(active, inst, typeId, bin);
            GetActiveFormatter(a1, inst, typeId, bin) == (a1, f1)
  {
    var (a1, f1) := GetActiveFormatter(active, inst, typeId, bin);
    FirstNamedUnique(inst[typeId], f1.value);
  }

  lemma FirstNamedUnique(fs: seq<Formatter>, f: Formatter)
    requires f in fs
    ensures FirstNamed(fs, f.name).Some?
  {
    var i :| 0 <= i < |fs| && fs[i] == f;
    assert fs[i].name == f.name;
  }

  // -----------------------------------------------------------------------
  //  Object file names

  /** Probes beyond the first name: `base_0` … `base_99999`. */
  const MaxTries: nat := 100000

  /** The `j`-th candidate name: `base+ext`, then `base_<j-1>+ext`. */
  function Candidate(base: string, ext: string, j: nat): string {
    if j == 0 then base + ext else base + "_" + Strings.NatToString(j - 1) + ext
  }

  /** Whether the `j`-th candidate name exists already. */
  predicate TakenAt(base: string, ext: string, taken: string -> bool, j: nat) {
    taken(Candidate(base, ext, j))
  }

  /** The first of the `count` candidate indices from `j` on whose name is
      free, if any. */
  function FreeAmong(base: string, ext: string, taken: string -> bool, j: nat, count: nat): Option<nat>
    decreases count
  {
    if count == 0 then None
    else if !TakenAt(base, ext, taken, j) then Some(j)
    else FreeAmong(base, ext, taken, j + 1, count - 1)
  }

  /** The first candidate index whose name is free, none when all
      `MaxTries + 1` candidates are taken. */
  function FirstFree(base: string, ext: string, taken: string -> bool): Option<nat> {
    FreeAmong(base, ext, taken, 0, MaxTries + 1)
  }

  /** `FreeAmong` finds the least free index of its range, and finds none
      exactly when the whole range is taken. */
  lemma {:induction false} FreeAmongIsLeast(base: string, ext: string, taken: string -> bool, j: nat, count: nat)
    ensures FreeAmong(base, ext, taken, j, count).Some? ==>
              var f := FreeAmong(base, ext, taken, j, count).value;
              j <= f < j + count && !TakenAt(base, ext, taken, f)
              && forall i :: j <= i < f ==> TakenAt(base, ext, taken, i)
    ensures FreeAmong(base, ext, taken, j, count).None? <==>
              forall i :: j <= i < j + count ==> TakenAt(base, ext, taken, i)
    decreases count
  {
    if count > 0 && TakenAt(base, ext, taken, j) {
      FreeAmongIsLeast(base, ext, taken, j + 1, count - 1);
    }
  }

  /** A path written out with `/` between its components. */
  function PathString(p: Path): string
  {
    if |p| == 0 then ""
    else if |p| == 1 then p[0]
    else PathString(p[..|p| - 1]) + "/" + p[|p| - 1]
  }

  /** `find_free_filename(dir/base, ext)` in a directory `dir` where `taken`
      names exist: the first candidate not taken, or `CantMakeFilename`
      naming the starting path `dir/base` when all `MaxTries + 1` candidates
      are. */
  method FindFreeFilename(dir: Path, base: string, ext: string, taken: string -> bool) returns (r: Result<string, Errors.Error>)
    ensures r.Ok? <==> FirstFree(base, ext, taken).Some?
    ensures r.Ok? ==> r.value == Candidate(base, ext, FirstFree(base, ext, taken).value)
    ensures r.Ok? ==> !taken(r.value)
    ensures r.Err? <==> forall j :: 0 <= j <= MaxTries ==> TakenAt(base, ext, taken, j)
    ensures r.Err? ==> r.error == Errors.Error(Errors.CantMakeFilename, PathString(dir + [base]))
  {
    var fname := base + ext;
    var i := 0;
    var exists_ := taken(fname);
    while exists_ && i < MaxTries
      invariant 0 <= i <= MaxTries
      invariant fname == Candidate(base, ext, i)
      invariant exists_ == TakenAt(base, ext, taken, i)
      invariant FreeAmong(base, ext, taken, i, MaxTries + 1 - i) == FirstFree(base, ext, taken)
      decreases MaxTries - i
    {
      fname := base + "_" + Strings.NatToString(i) + ext;
      i := i + 1;
      exists_ := taken(fname);
    }
    FreeAmongIsLeast(base, ext, taken, 0, MaxTries + 1);
    if exists_ {
      assert FreeAmong(base, ext, taken, i, MaxTries + 1 - i) == None;
      return Err(Errors.Error(Errors.CantMakeFilename, PathString(dir + [base])));
    }
    assert FreeAmong(base, ext, taken, i, MaxTries + 1 - i) == Some(i);
    return Ok(fname);
  }

  /** The name an object's file starts from: a node's group id, otherwise the
      object's id. */
  function BaseName(obj: ObjBase.Obj, gid: string): string {
    if obj.isNode then gid else obj.id
  }

  // -----------------------------------------------------------------------
  //  save_object

  /** The objects directory once `save_object` has entered it: kept when
      already set, `root/objects_dir` otherwise. */
  function ObjectsPathOf(a: Archive): Path {
    if a.objectsPath == [] then a.root + [a.objectsDir] else a.objectsPath
  }

  /** The extension files of formatter `fmt` get. */
  function Ext(fmt: Formatter): string {
    "." + fmt.name
  }

  /** `save_object(obj)`. Whatever happens, the entries `fmt` and `filename`
      are written (an empty format and `"<error>"` standing in for values
      that could not be obtained). Without an active formatter it fails with
      `MissingFormatter` before entering any directory; with one it enters
      the root and the objects directory; when every candidate file name is taken it fails
      with `CantMakeFilename`. Otherwise the body entry follows (the node
      itself when the formatter does not store nodes, else the object), a
      save job for the first free file name is sent, and the final wait is
      registered with the archive once. `gid` is the group id when `obj` is
      a node; `taken` tells which names exist in the objects directory. */
  method SaveObject(a: Archive, obj: ObjBase.Obj, gid: string, inst: Installed, bin: string, taken: string -> bool)
    returns (r: Archive, err: Errors.Error)
    requires Valid(a)
    ensures Valid(r)
    ensures r.root == a.root
    ensures GetActiveFormatter(a.active, inst, obj.typeId, bin).1.None? ==>
              err == Errors.Error(Errors.MissingFormatter, obj.typeId)
              && r.cur == a.cur && r.objectsPath == a.objectsPath
              && r.log == a.log + [Fmt(""), Filename("<error>")] && r.sent == a.sent
    ensures GetActiveFormatter(a.active, inst, obj.typeId, bin).1.Some? ==>
              var fmt := GetActiveFormatter(a.active, inst, obj.typeId, bin).1.value;
              var free := FirstFree(BaseName(obj, gid), Ext(fmt), taken);
              r.cur == EnterRoot(a).cur && r.objectsPath == ObjectsPathOf(a)
              && (free.None? ==>
                    err == Errors.Error(Errors.CantMakeFilename, PathString(ObjectsPathOf(a) + [BaseName(obj, gid)]))
                    && r.log == a.log + [Fmt(fmt.name), Filename("<error>")] && r.sent == a.sent)
              && (free.Some? ==>
                    var name := Candidate(BaseName(obj, gid), Ext(fmt), free.value);
                    !err.Failed() && !taken(name)
                    && r.log == a.log + [Fmt(fmt.name), Filename(name),
                                         if obj.isNode && !fmt.storesNode then NodeBody else ObjectBody]
                    && r.sent == a.sent + [SaveJob(obj, fmt.name, ObjectsPathOf(a), name)]
                    && r.hasWaitDeferred && r.waits == 1)
  {
    var (active, f) := GetActiveFormatter(a.active, inst, obj.typeId, bin);
    if f.None? {
      r := a.(active := active, log := a.log + [Fmt(""), Filename("<error>")]);
      err := Errors.Error(Errors.MissingFormatter, obj.typeId);
      return;
    }
    var fmt := f.value;
    var cur := EnterRoot(a).cur;
    var dir := ObjectsPathOf(a);
    var base := BaseName(obj, gid);
    var name := FindFreeFilename(dir, base, Ext(fmt), taken);
    if name.Err? {
      r := a.(active := active, cur := cur, objectsPath := dir,
              log := a.log + [Fmt(fmt.name), Filename("<error>")]);
      err := name.error;
      return;
    }
    var body := if obj.isNode && !fmt.storesNode then NodeBody else ObjectBody;
    // the final wait is deferred only by the first successful save
    var waits := if a.hasWaitDeferred then a.waits else a.waits + 1;
    r := a.(active := active, cur := cur, objectsPath := dir, hasWaitDeferred := true, waits := waits,
            log := a.log + [Fmt(fmt.name), Filename(name.value), body],
            sent := a.sent + [SaveJob(obj, fmt.name, dir, name.value)]);
    err := Errors.Success;
  }
}

=== FILE: ids.dfy ===
/** Identity generation. The kernel draws link and object ids from a random
    UUID generator; the model replaces it with a deterministic oracle that,
    given the ids already in use, returns one that is not among them. */
module Ids {

  /** `to_string(boost::uuids::nil_uuid())` */
  const NilUuid: string := "00000000-0000-0000-0000-000000000000"

  function MaxLength(used: seq<string>): (m: nat)
    ensures forall i :: 0 <= i < |used| ==> |used[i]| <= m
    decreases |used|
  {
    if |used| == 0 then 0
    else
      var rest := MaxLength(used[1..]);
      if |used[0]| > rest then |used[0]| else rest
  }

  function Repeat(c: char, n: nat): (r: string)
    ensures |r| == n
  {
    seq(n, _ => c)
  }

  /** A fresh id: longer than every id in `used`, hence different from all of them. */
  function FreshId(used: seq<string>): (r: string)
    ensures r !in used
    ensures |r| > 0
  {
    Repeat('u', MaxLength(used) + 1)
  }
}

=== FILE: kernel_types.dfy ===
/** The kernel's registry of types and its per-type storage
    (kernel/src/kernel_impl.h). Types are registered as tuples of the
    providing plugin's descriptor and the type's descriptor. */
module KernelTypes {
  import opened Wrappers
  import opened TypeInfo
  import Bindings
  import Errors

  /** `plugin_descriptor`: its name, whether it is a nil (placeholder)
      descriptor, and its input and output serialization bindings. */
  datatype PluginDescriptor = PluginDescriptor(
    name: string,
    isNil: bool,
    input: Option<Bindings.Archives>,
    output: Option<Bindings.Archives>)

  /** `plugin_descriptor::nil()`; its name is not part of this model. */
  const NilPlugin: PluginDescriptor := PluginDescriptor("", true, None, None)

  /** `type_tuple`: the providing plugin and the type's descriptor. */
  datatype TypeTuple = TypeTuple(plug: PluginDescriptor, td: TypeDescriptor)

  /** `type_tuple()`: nil plugin, nil type. */
  const NoType: TypeTuple := TypeTuple(NilPlugin, Nil)

  /** `find_type(name)`: the registered type with that name, or the empty
      tuple when none is registered. */
  function FindType(types: seq<TypeTuple>, name: string): (r: TypeTuple)
    ensures (exists i :: 0 <= i < |types| && types[i].td.name == name) ==> r in types && r.td.name == name
    ensures !(exists i :: 0 <= i < |types| && types[i].td.name == name) ==> r == NoType
    decreases |types|
  {
    if |types| == 0 then NoType
    else if types[0].td.name == name then types[0]
    else
      var r := FindType(types[1..], name);
      assert forall i :: 1 <= i < |types| ==> types[i] == types[1..][i - 1];
      r
  }

  /** The message of the error `find_type_info` throws. */
  function NotRegistered(name: string): string {
    "Cannot find type info for type " + name + ", seems like not registered"
  }

  /** `find_type_info(master)`: the descriptor's own type index, or else the
      index of the registered type with the same name; never nil. */
  function FindTypeInfo(types: seq<TypeTuple>, master: TypeDescriptor): (r: Result<TypeIndex, Errors.Error>)
    ensures r.Ok? ==> !IsNilIndex(r.value)
    ensures !IsNilIndex(master.info) ==> r == Ok(master.info)
    ensures IsNilIndex(master.info) && r.Ok? ==> r.value == FindType(types, master.name).td.info
    ensures r.Err? <==> IsNilIndex(master.info) && IsNilIndex(FindType(types, master.name).td.info)
    ensures r.Err? ==> r.error == Errors.Error(Errors.Generic, NotRegistered(master.name))
  {
    var info := if IsNilIndex(master.info) then FindType(types, master.name).td.info else master.info;
    if IsNilIndex(info) then Err(Errors.Error(Errors.Generic, NotRegistered(master.name)))
    else Ok(info)
  }

  /** `pert_str_any_array(master)` / `pert_idx_any_array(master)`: the slot
      of the map keyed by the resolved type index, created empty on first
      use. */
  function PertArray<V>(store: map<TypeIndex, V>, types: seq<TypeTuple>, master: TypeDescriptor, empty: V): (r: Result<(map<TypeIndex, V>, V), Errors.Error>)
    ensures r.Err? <==> FindTypeInfo(types, master).Err?
    ensures r.Ok? ==>
              var info := FindTypeInfo(types, master).value;
              info in r.value.0 && r.value.1 == r.value.0[info]
              && (info in store ==> r.value.0 == store && r.value.1 == store[info])
              && (info !in store ==> r.value.0 == store[info := empty] && r.value.1 == empty)
  {
    match FindTypeInfo(types, master)
    case Err(e) => Err(e)
    case Ok(info) =>
      if info in store then Ok((store, store[info])) else Ok((store[info := empty], empty))
  }

  /** A descriptor known only by name shares its storage with the
      registered type of that name. */
  lemma NameOnlySharesSlot<V>(store: map<TypeIndex, V>, types: seq<TypeTuple>, td: TypeDescriptor, empty: V)
    requires td in (set t | t in types :: t.td) && !IsNilIndex(td.info)
    requires forall i, j :: 0 <= i < j < |types| ==> types[i].td.name != types[j].td.name
    ensures PertArray(store, types, FromName(td.name), empty) == PertArray(store, types, td, empty)
  {
    var k :| 0 <= k < |types| && types[k].td == td;
    FindTypeUnique(types, k);
  }

  /** With unique names, finding a registered type's name yields that type. */
  lemma {:induction false} FindTypeUnique(types: seq<TypeTuple>, k: nat)
    requires k < |types|
    requires forall i, j :: 0 <= i < j < |types| ==> types[i].td.name != types[j].td.name
    ensures FindType(types, types[k].td.name) == types[k]
    decreases |types|
  {
    if k > 0 {
      assert types[0].td.name != types[k].td.name;
      FindTypeUnique(types[1..], k - 1);
    }
  }
}

=== FILE: key_sort.dfy ===
/** The ordered indices of a multi-index container, over any element type:
    a key function projects each element to a string, an index lists the
    elements sorted by key, and an equal range is the run of elements with
    one key. Sorting is stable, so within one key an ordered index keeps
    the order of the sequence it was built from. */
module KeySort {
  import opened Strings

  predicate SortedBy<T>(s: seq<T>, key: T -> string) {
    forall i, j :: 0 <= i < j < |s| ==> LexLe(key(s[i]), key(s[j]))
  }

  /** The elements of `s` whose key is `v`, in the order of `s`. */
  function Matching<T>(s: seq<T>, key: T -> string, v: string): (r: seq<T>)
    ensures |r| <= |s|
    ensures forall i :: 0 <= i < |r| ==> key(r[i]) == v
    decreases |s|
  {
    if |s| == 0 then []
    else (if key(s[0]) == v then [s[0]] else []) + Matching(s[1..], key, v)
  }

  /** The selection is complete: it keeps every copy of each element whose
      key is `v`, and nothing else. */
  lemma {:induction false} MatchingCounts<T>(s: seq<T>, key: T -> string, v: string)
    ensures multiset(Matching(s, key, v)) <= multiset(s)
    ensures forall i :: 0 <= i < |s| && key(s[i]) == v ==>
              multiset(Matching(s, key, v))[s[i]] == multiset(s)[s[i]]
    decreases |s|
  {
    if |s| > 0 {
      var t := s[1..];
      assert s == [s[0]] + t;
      MatchingCounts(t, key, v);
      var m := Matching(t, key, v);
      var h := if key(s[0]) == v then [s[0]] else [];
      assert Matching(s, key, v) == h + m;
      assert multiset(Matching(s, key, v)) == multiset(h) + multiset(m);
      forall i | 0 <= i < |s| && key(s[i]) == v
        ensures multiset(Matching(s, key, v))[s[i]] == multiset(s)[s[i]]
      {
        if s[i] in t {
          var j :| 0 <= j < |t| && t[j] == s[i];
          assert multiset(m)[t[j]] == multiset(t)[t[j]];
        } else {
          assert multiset(m)[s[i]] == 0;
        }
      }
    }
  }

  /** Inserts `x` before the first element whose key is not smaller. */
  function InsertSorted<T(==)>(x: T, s: seq<T>, key: T -> string): (r: seq<T>)
    ensures |r| == |s| + 1
    ensures multiset(r) == multiset(s) + multiset{x}
    decreases |s|
  {
    if |s| == 0 then [x]
    else if LexLe(key(x), key(s[0])) then [x] + s
    else
      assert s == [s[0]] + s[1..];
      [s[0]] + InsertSorted(x, s[1..], key)
  }

  /** Stable insertion sort by key. */
  function SortByKey<T(==)>(s: seq<T>, key: T -> string): (r: seq<T>)
    ensures |r| == |s|
    ensures multiset(r) == multiset(s)
    decreases |s|
  {
    if |s| == 0 then []
    else
      assert s == [s[0]] + s[1..];
      InsertSorted(s[0], SortByKey(s[1..], key), key)
  }

  lemma {:induction false} InsertSortedKeepsSorted<T>(x: T, s: seq<T>, key: T -> string)
    requires SortedBy(s, key)
    ensures SortedBy(InsertSorted(x, s, key), key)
    decreases |s|
  {
    var kx := key(x);
    if |s| == 0 {
    } else if LexLe(kx, key(s[0])) {
      var r := [x] + s;
      forall i, j | 0 <= i < j < |r| ensures LexLe(key(r[i]), key(r[j])) {
        if i == 0 && j > 1 {
          LexLeTransitive(kx, key(s[0]), key(s[j - 1]));
        }
      }
    } else {
      LexLessTotal(kx, key(s[0]));
      var tail := InsertSorted(x, s[1..], key);
      InsertSortedKeepsSorted(x, s[1..], key);
      var r := [s[0]] + tail;
      forall i, j | 0 <= i < j < |r| ensures LexLe(key(r[i]), key(r[j])) {
        if i == 0 {
          var y := r[j];
          assert y in multiset(tail);
          assert y == x || y in multiset(s[1..]);
          if y != x {
            var m :| 0 <= m < |s[1..]| && s[1..][m] == y;
            assert s[m + 1] == y;
          }
        }
      }
    }
  }

  /** A sorted index is sorted by its key. */
  lemma {:induction false} SortByKeySorted<T>(s: seq<T>, key: T -> string)
    ensures SortedBy(SortByKey(s, key), key)
    decreases |s|
  {
    if |s| > 0 {
      SortByKeySorted(s[1..], key);
      InsertSortedKeepsSorted(s[0], SortByKey(s[1..], key), key);
    }
  }

  lemma MatchingCons<T>(y: T, t: seq<T>, key: T -> string, v: string)
    ensures Matching([y] + t, key, v) == (if key(y) == v then [y] else []) + Matching(t, key, v)
  {
    assert ([y] + t)[1..] == t;
  }

  lemma {:induction false} MatchingOfInsert<T>(x: T, s: seq<T>, key: T -> string, v: string)
    ensures Matching(InsertSorted(x, s, key), key, v)
         == (if key(x) == v then [x] else []) + Matching(s, key, v)
    decreases |s|
  {
    if |s| == 0 {
      MatchingCons(x, [], key, v);
      assert [x] + [] == [x];
    } else if LexLe(key(x), key(s[0])) {
      MatchingCons(x, s, key, v);
    } else {
      MatchingOfInsert(x, s[1..], key, v);
      var tail := InsertSorted(x, s[1..], key);
      var rest := Matching(s[1..], key, v);
      MatchingCons(s[0], tail, key, v);
      MatchingCons(s[0], s[1..], key, v);
      assert s == [s[0]] + s[1..];
      if key(x) == v {
        assert key(s[0]) != v;
      }
    }
  }

  /** Stability: the equal range of a key in a sorted index is the selection
      of that key from the original sequence, in its order. */
  lemma {:induction false} SortByKeyStable<T>(s: seq<T>, key: T -> string, v: string)
    ensures Matching(SortByKey(s, key), key, v) == Matching(s, key, v)
    decreases |s|
  {
    if |s| > 0 {
      SortByKeyStable(s[1..], key, v);
      MatchingOfInsert(s[0], SortByKey(s[1..], key), key, v);
    }
  }
}

=== FILE: links.dfy ===
/** Links (kernel/src/link.cpp, kernel/src/hard_link.cpp,
    kernel/src/tree/link_impl.h): a named, identified tree edge with flags,
    a weak back-reference to its owning node, two request-status slots and
    the state of its variant (hard, weak or symbolic). */
module Links {
  import opened Wrappers
  import opened Ids
  import opened ObjBase
  import TypeInfo

  /** Request kinds, one status slot each. */
  datatype Req = Data | DataNode

  datatype ReqStatus = Void | Busy | OK | Error

  /** Condition of `rs_reset`: unconditional, if-equal or if-not-equal. */
  datatype ReqReset = Always | IfEq | IfNeq

  /** `status_handle status_[2]`: one slot per request kind. */
  datatype StatusSlots = StatusSlots(data: ReqStatus, dataNode: ReqStatus) {

    function Get(r: Req): ReqStatus {
      match r
      case Data => data
      case DataNode => dataNode
    }

    function Set(r: Req, s: ReqStatus): (res: StatusSlots)
      ensures res.Get(r) == s
      ensures forall q :: q != r ==> res.Get(q) == Get(q)
    {
      match r
      case Data => StatusSlots(s, dataNode)
      case DataNode => StatusSlots(data, s)
    }
  }

  /** Both slots start as `Void`. */
  const InitialSlots: StatusSlots := StatusSlots(Void, Void)

  /** Per-variant stored state: a hard link owns its object pointer (which may
      be null), a weak link holds a non-owning pointer (`None` once expired),
      a symbolic link stores a path. Its `resolved` field is not stored by the
      source: it stands for the object that `data()` yields right now by
      resolving the path from the owner (`None` when resolution fails or
      yields nothing). The rest of the tree is not part of this value, so
      the model carries that view alongside the path; `SymLink.Coherent`
      states when it agrees with path resolution. */
  datatype Variant = Hard(obj: Option<Obj>) | Weak(target: Option<Obj>) | Sym(path: string, resolved: Option<Obj>)

  /** `owner` is the identity of the owning node, `None` for an empty weak pointer. */
  datatype Link = Link(
    id: string,
    name: string,
    flags: nat,
    owner: Option<string>,
    status: StatusSlots,
    variant: Variant)

  /** `link(std::string name)`: the given name, a fresh id, flags 0, no owner,
      both request slots `Void`. */
  function NewLink(name: string, v: Variant, used: seq<string>): (l: Link)
    ensures l.name == name && l.variant == v
    ensures l.id !in used
    ensures l.flags == 0 && l.owner.None?
    ensures l.status.Get(Data) == Void && l.status.Get(DataNode) == Void
  {
    Link(FreshId(used), name, 0, None, InitialSlots, v)
  }

  /** Copy constructor: keeps the name and the variant state but never the
      id; flags go back to 0 and the owner is left empty. A copied symbolic
      link, having no owner, resolves to nothing. */
  function CopyLink(l: Link, used: seq<string>): (c: Link)
    requires l.id in used
    ensures c.id != l.id && c.id !in used
    ensures c.name == l.name
    ensures !l.variant.Sym? ==> c.variant == l.variant && Pointee(c) == Pointee(l)
    ensures l.variant.Sym? ==> c.variant == Sym(l.variant.path, None)
    ensures c.variant.Sym? ==> Pointee(c).None? && Oid(c) == NilUuid
    ensures c.flags == 0 && c.owner.None?
    ensures c.status == InitialSlots
  {
    var v := if l.variant.Sym? then Sym(l.variant.path, None) else l.variant;
    NewLink(l.name, v, used)
  }

  /** `link::data()` per variant: the stored object of a hard link, the
      still-alive target of a weak link, the object a symbolic link's path
      currently resolves to. */
  function Pointee(l: Link): Option<Obj> {
    match l.variant
    case Hard(o) => o
    case Weak(o) => o
    case Sym(_, o) => o
  }

  /** `link::oid()` */
  function Oid(l: Link): string {
    match Pointee(l)
    case Some(o) => o.id
    case None => NilUuid
  }

  /** `link::obj_type_id()` */
  function ObjTypeId(l: Link): string {
    match Pointee(l)
    case Some(o) => o.typeId
    case None => TypeInfo.Nil.name
  }

  /** A link with nothing behind it reports the nil UUID string as object id
      and the nil type name as object type; otherwise both come from the
      object. */
  lemma PointeeViews(l: Link)
    ensures Pointee(l).None? ==> Oid(l) == "00000000-0000-0000-0000-000000000000"
    ensures Pointee(l).None? ==> ObjTypeId(l) == "__blue_sky_nil_type__"
    ensures Pointee(l).Some? ==> Oid(l) == Pointee(l).value.id && ObjTypeId(l) == Pointee(l).value.typeId
  {
  }

  /** `reset_owner(n)`: only the owner changes. */
  function ResetOwner(l: Link, owner: Option<string>): (r: Link)
    ensures r.owner == owner
    ensures r.id == l.id && r.name == l.name && r.flags == l.flags
    ensures r.status == l.status && r.variant == l.variant
  {
    l.(owner := owner)
  }

  /** `set_flags(f)`: afterwards `flags()` returns `f`, nothing else changes. */
  function SetFlags(l: Link, f: nat): (r: Link)
    ensures r.flags == f
    ensures r.id == l.id && r.name == l.name && r.owner == l.owner
    ensures r.status == l.status && r.variant == l.variant
  {
    l.(flags := f)
  }

  /** `link::rename`: only the name changes. */
  function Rename(l: Link, newName: string): (r: Link)
    ensures r.name == newName
    ensures r.id == l.id && r.flags == l.flags && r.owner == l.owner
    ensures r.status == l.status && r.variant == l.variant
  {
    l.(name := newName)
  }

  // -----------------------------------------------------------------------
  //  Request status state machine

  /** Whether `rs_reset` with condition `cond` and comparison value `cmp`
      changes a slot currently holding `cur`. */
  predicate ResetApplies(cond: ReqReset, cur: ReqStatus, cmp: ReqStatus) {
    match cond
    case Always => true
    case IfEq => cur == cmp
    case IfNeq => cur != cmp
  }

  /** `rs_reset(request, cond, new_rs, old_rs)`: returns the previous status
      of `req` and the link whose `req` slot holds `newRs` when the condition
      held and is untouched otherwise. The other slot and the rest of the
      link never change. */
  function RsReset(l: Link, req: Req, cond: ReqReset, newRs: ReqStatus, cmp: ReqStatus): (r: (ReqStatus, Link))
    ensures r.0 == l.status.Get(req)
    ensures r.1.status.Get(req) == (if ResetApplies(cond, r.0, cmp) then newRs else r.0)
    ensures forall q :: q != req ==> r.1.status.Get(q) == l.status.Get(q)
    ensures r.1 == l.(status := r.1.status)
  {
    var prev := l.status.Get(req);
    if ResetApplies(cond, prev, cmp) then (prev, l.(status := l.status.Set(req, newRs)))
    else (prev, l)
  }

  /** Unconditional reset: the slot holds the new value afterwards. */
  function RsResetAlways(l: Link, req: Req, newRs: ReqStatus): (r: Link)
    ensures r.status.Get(req) == newRs
    ensures forall q :: q != req ==> r.status.Get(q) == l.status.Get(q)
  {
    RsReset(l, req, Always, newRs, Void).1
  }

  /** `rs_reset_if_eq(req, self_rs, new_rs)`: sets `newRs` only when the slot
      equals `selfRs`; returns the previous status. */
  function RsResetIfEq(l: Link, req: Req, selfRs: ReqStatus, newRs: ReqStatus): (r: (ReqStatus, Link))
    ensures r.0 == l.status.Get(req)
    ensures r.0 == selfRs ==> r.1.status.Get(req) == newRs
    ensures r.0 != selfRs ==> r.1 == l
    ensures forall q :: q != req ==> r.1.status.Get(q) == l.status.Get(q)
  {
    RsReset(l, req, IfEq, newRs, selfRs)
  }

  /** `rs_reset_if_neq(req, self_rs, new_rs)`: sets `newRs` only when the slot
      differs from `selfRs`; returns the previous status. */
  function RsResetIfNeq(l: Link, req: Req, selfRs: ReqStatus, newRs: ReqStatus): (r: (ReqStatus, Link))
    ensures r.0 == l.status.Get(req)
    ensures r.0 != selfRs ==> r.1.status.Get(req) == newRs
    ensures r.0 == selfRs ==> r.1 == l
    ensures forall q :: q != req ==> r.1.status.Get(q) == l.status.Get(q)
  {
    RsReset(l, req, IfNeq, newRs, selfRs)
  }

  /** Claiming the busy slot (`if_eq(Void) -> Busy`) serialises racing
      callers: of two consecutive claims at most one sees `Void`, and after
      either of them the slot is no longer `Void`. */
  lemma ClaimBusyAtMostOnce(l: Link, req: Req)
    ensures var (p1, l1) := RsResetIfEq(l, req, Void, Busy);
            var (p2, l2) := RsResetIfEq(l1, req, Void, Busy);
            !(p1 == Void && p2 == Void) && l2.status.Get(req) != Void
  {
  }

  /** `sym_link::check_alive`'s reset (`if_neq(S) -> S`) always leaves the
      slot equal to `S`, whatever it held. */
  lemma ResetIfNeqToSelfLands(l: Link, req: Req, s: ReqStatus)
    ensures RsResetIfNeq(l, req, s, s).1.status.Get(req) == s
  {
  }

  // -----------------------------------------------------------------------
  //  Hard links (kernel/src/hard_link.cpp)

  /** `link::type_id()` per variant. */
  function LinkTypeId(l: Link): string {
    match l.variant
    case Hard(_) => "hard_link"
    case Weak(_) => "weak_link"
    case Sym(_, _) => "sym_link"
  }

  /** `hard_link(name, data)`: stores the name and the object pointer, which
      may be null; `data()` then returns exactly that pointer, and
      `oid()`/`obj_type_id()` are the object's, or the nil id and nil type
      for a null pointer. */
  function NewHardLink(name: string, obj: Option<Obj>, used: seq<string>): (l: Link)
    ensures l.name == name && l.id !in used && l.flags == 0 && l.owner.None?
    ensures Pointee(l) == obj
    ensures obj.Some? ==> Oid(l) == obj.value.id && ObjTypeId(l) == obj.value.typeId
    ensures obj.None? ==> Oid(l) == NilUuid && ObjTypeId(l) == TypeInfo.Nil.name
    ensures LinkTypeId(l) == "hard_link"
  {
    NewLink(name, Hard(obj), used)
  }

  /** `hard_link::clone()`: copy construction; same name and object, fresh id,
      zero flags. */
  function CloneHard(l: Link, used: seq<string>): (c: Link)
    requires l.variant.Hard? && l.id in used
    ensures c.id != l.id && c.name == l.name && c.flags == 0
    ensures Pointee(c) == Pointee(l) && Oid(c) == Oid(l)
    ensures LinkTypeId(c) == "hard_link"
  {
    CopyLink(l, used)
  }
}

=== FILE: node.dfy ===
/** A tree node's link container (kernel/include/bs/tree/node.h and
    kernel/src/tree/node_impl.h). The node stores one sequence of links in
    custom order; the ID, name, object-id and type views are derived from
    it. Positions returned by lookups are offsets in the custom order, and
    the size of the node stands for the `end()` iterator. */
module Node {
  import opened Wrappers
  import opened Links
  import opened NodeKeys
  import opened KeySort
  import Errors

  /** `handle` is the id of the single link that owns this node in the tree,
      if any: a node has at most one owning link. */
  datatype Node = Node(links: seq<Link>, handle: Option<string>)

  /** The hashed unique ID index admits no two links with one id. */
  predicate UniqueIds(s: seq<Link>) {
    forall i, j :: 0 <= i < j < |s| ==> s[i].id != s[j].id
  }

  predicate Valid(n: Node) {
    UniqueIds(n.links)
  }

  function Size(n: Node): nat {
    |n.links|
  }

  // -----------------------------------------------------------------------
  //  Search

  /** Position of the first link of `s` whose key is `v`; `|s|` when none. */
  function FirstMatch(s: seq<Link>, key: Link -> string, v: string): (p: nat)
    ensures p <= |s|
    ensures p < |s| ==> key(s[p]) == v
    ensures forall j :: 0 <= j < p ==> key(s[j]) != v
    decreases |s|
  {
    if |s| == 0 then 0
    else if key(s[0]) == v then 0
    else 1 + FirstMatch(s[1..], key, v)
  }

  /** `find<K>(key)` projected to the custom order. A position is clamped to
      the size, so it never reads past the sequence; a string key yields the
      first link carrying it, or the end when no link does. */
  function Find(n: Node, k: Key, arg: KeyArg): (p: nat)
    requires KeyFits(k, arg)
    ensures p <= Size(n)
    ensures k == AnyOrder && arg.idx < Size(n) ==> p == arg.idx
    ensures k == AnyOrder && arg.idx >= Size(n) ==> p == Size(n)
    ensures k != AnyOrder ==>
              (p < Size(n) <==> exists j :: 0 <= j < Size(n) && KeyOf(n.links[j], k) == arg.s)
    ensures k != AnyOrder && p < Size(n) ==> KeyOf(n.links[p], k) == arg.s
    ensures k != AnyOrder ==> forall j :: 0 <= j < p ==> KeyOf(n.links[j], k) != arg.s
  {
    if k == AnyOrder then
      if arg.idx < |n.links| then arg.idx else |n.links|
    else
      FirstMatch(n.links, Extractor(k), arg.s)
  }

  /** `to_index(pos)`: none for the end, the offset otherwise. */
  function ToIndex(n: Node, pos: nat): (r: Option<nat>)
    requires pos <= Size(n)
    ensures r.None? <==> pos == Size(n)
    ensures r.Some? ==> r.value == pos
  {
    if pos == |n.links| then None else Some(pos)
  }

  /** Whether some link answers `arg` in view `k`. */
  predicate Present(n: Node, k: Key, arg: KeyArg)
    requires KeyFits(k, arg)
  {
    if k == AnyOrder then arg.idx < Size(n)
    else exists j :: 0 <= j < Size(n) && KeyOf(n.links[j], k) == arg.s
  }

  /** `index<K>(key)`, i.e. `to_index(find<K>(key))`: the custom-order
      position of the link found, none exactly when nothing answers. */
  function Index(n: Node, k: Key, arg: KeyArg): (r: Option<nat>)
    requires KeyFits(k, arg)
    ensures r.Some? <==> Present(n, k, arg)
    ensures r.Some? ==> r.value < Size(n)
    ensures r.Some? && k == AnyOrder ==> r.value == arg.idx
    ensures r.Some? && k != AnyOrder ==> KeyOf(n.links[r.value], k) == arg.s
  {
    ToIndex(n, Find(n, k, arg))
  }

  /** `node_impl::search<K>`: the link found, null when nothing answers. */
  function Search(n: Node, k: Key, arg: KeyArg): (r: Option<Link>)
    requires KeyFits(k, arg)
    ensures r.Some? <==> Present(n, k, arg)
    ensures r.Some? ==> r.value in n.links
    ensures r.Some? && k != AnyOrder ==> KeyOf(r.value, k) == arg.s
    ensures r.Some? ==> r.value == n.links[Index(n, k, arg).value]
  {
    var p := Find(n, k, arg);
    if p < |n.links| then Some(n.links[p]) else None
  }

  /** `node::search<K>`: the link found, or a `KeyMismatch` error. */
  function SearchOrFail(n: Node, k: Key, arg: KeyArg): (r: Result<Link, Errors.Error>)
    requires KeyFits(k, arg)
    ensures r.Err? <==> !Present(n, k, arg)
    ensures r.Err? ==> r.error.code == Errors.KeyMismatch
    ensures r.Ok? ==> Search(n, k, arg) == Some(r.value)
  {
    match Search(n, k, arg)
    case Some(l) => Ok(l)
    case None => Err(Errors.Error(Errors.KeyMismatch, "node::search"))
  }

  /** In a valid node, the ID view finds the link at its own position. */
  lemma FindOwnId(n: Node, i: nat)
    requires Valid(n) && i < Size(n)
    ensures Find(n, ID, Str(n.links[i].id)) == i
  {
    assert KeyOf(n.links[i], ID) == n.links[i].id;
  }

  // -----------------------------------------------------------------------
  //  Views

  /** `values<K>()`: every link, in the order of view `K`. The hashed ID view
      has no specified order and is listed in custom order. */
  function Values(n: Node, k: Key): (r: seq<Link>)
    ensures |r| == Size(n)
    ensures multiset(r) == multiset(n.links)
    ensures k !in {AnyOrder, ID} ==> SortedBy(r, Extractor(k))
  {
    if k == AnyOrder || k == ID then n.links
    else
      SortByKeySorted(n.links, Extractor(k));
      SortByKey(n.links, Extractor(k))
  }

  /** `keys<K>()`: the `K` key of every link, listed in the container's own
      iteration order, which is the custom order whatever view `K` names. */
  function Keys(n: Node, k: Key): (r: seq<string>)
    requires k != AnyOrder
    ensures |r| == Size(n)
    ensures forall i :: 0 <= i < |r| ==> r[i] == KeyOf(n.links[i], k)
  {
    seq(|n.links|, i requires 0 <= i < |n.links| => KeyOf(n.links[i], k))
  }

  /** Listing keys and looking them up agree: a key is listed exactly when
      the view finds it. */
  lemma {:induction false} KeysListPresent(n: Node, k: Key, v: string)
    requires k != AnyOrder
    ensures v in Keys(n, k) <==> Present(n, k, Str(v))
  {
    var ks := Keys(n, k);
    if v in ks {
      var j :| 0 <= j < |ks| && ks[j] == v;
      assert KeyOf(n.links[j], k) == v;
    }
    if Present(n, k, Str(v)) {
      var j :| 0 <= j < Size(n) && KeyOf(n.links[j], k) == v;
      assert ks[j] == v;
    }
  }

  /** Looking up the `i`-th listed key finds a link at or before position
      `i`; in a valid node the ID view finds position `i` itself. */
  lemma {:induction false} KeysIndexRoundTrip(n: Node, k: Key, i: nat)
    requires k != AnyOrder && i < Size(n)
    ensures Index(n, k, Str(Keys(n, k)[i])).Some?
    ensures Index(n, k, Str(Keys(n, k)[i])).value <= i
    ensures k == ID && Valid(n) ==> Index(n, k, Str(Keys(n, k)[i])) == Some(i)
  {
    var v := Keys(n, k)[i];
    assert KeyOf(n.links[i], k) == v;
    var p := Find(n, k, Str(v));
    assert p <= i;
    if k == ID && Valid(n) {
      FindOwnId(n, i);
    }
  }

  /** `equal_range<K>(key)` for an ordered or hashed view: the links carrying
      `v`, listed in custom order. */
  function EqualRange(n: Node, k: Key, v: string): (r: seq<Link>)
    requires k != AnyOrder
    ensures forall i :: 0 <= i < |r| ==> KeyOf(r[i], k) == v && r[i] in n.links
  {
    MatchingIn(n.links, Extractor(k), v);
    Matching(n.links, Extractor(k), v)
  }

  /** The equal range is complete: it holds every link of the node carrying
      `v`, as often as the node does, and nothing else. */
  lemma EqualRangeComplete(n: Node, k: Key, v: string)
    requires k != AnyOrder
    ensures forall l :: l in n.links && KeyOf(l, k) == v ==> l in EqualRange(n, k, v)
    ensures forall l :: multiset(EqualRange(n, k, v))[l] == (if KeyOf(l, k) == v then multiset(n.links)[l] else 0)
  {
    var e := Extractor(k);
    var r := EqualRange(n, k, v);
    MatchingCounts(n.links, e, v);
    forall l ensures multiset(r)[l] == (if KeyOf(l, k) == v then multiset(n.links)[l] else 0) {
      if l in n.links && KeyOf(l, k) == v {
        var j :| 0 <= j < |n.links| && n.links[j] == l;
        assert e(n.links[j]) == v;
      }
    }
  }

  lemma {:induction false} MatchingIn(s: seq<Link>, key: Link -> string, v: string)
    ensures forall i :: 0 <= i < |Matching(s, key, v)| ==> Matching(s, key, v)[i] in s
    decreases |s|
  {
    if |s| > 0 {
      MatchingIn(s[1..], key, v);
    }
  }

  /** The equal range read off the sorted view is the same run of links as
      the custom-order selection: all views agree on which links carry a key. */
  lemma EqualRangeIsViewRun(n: Node, k: Key, v: string)
    requires k !in {AnyOrder, ID}
    ensures Matching(Values(n, k), Extractor(k), v) == EqualRange(n, k, v)
  {
    SortByKeyStable(n.links, Extractor(k), v);
  }

  // -----------------------------------------------------------------------
  //  Erase

  /** `EraseOpts` flags. */
  const EraseNormal: bv8 := 0
  const EraseSilent: bv8 := 1
  const EraseDontResetOwner: bv8 := 2

  predicate DontResetOwner(opts: bv8) {
    opts & EraseDontResetOwner != 0
  }

  /** A link leaving the node: its owner is reset unless told not to. A
      symbolic link left without owner resolves to nothing. */
  function Detach(l: Link, dontResetOwner: bool): (r: Link)
    ensures r.id == l.id && r.name == l.name
    ensures dontResetOwner ==> r == l
    ensures !dontResetOwner ==> r.owner.None? && r.flags == l.flags && r.status == l.status
    ensures !dontResetOwner && !l.variant.Sym? ==> r.variant == l.variant
    ensures !dontResetOwner && l.variant.Sym? ==> r.variant == Sym(l.variant.path, None)
  {
    if dontResetOwner then l
    else if l.variant.Sym? then ResetOwner(l, None).(variant := Sym(l.variant.path, None))
    else ResetOwner(l, None)
  }

  /** What erasing one link gives: the node without it, the custom-order
      index `erase_impl` reports and the link as detached; or `AtEnd` when
      the lookup found nothing and `erase_impl` is handed the end iterator.
      `erase_impl` does no range checking, so the code does not define what
      happens then; the model does not pretend it is a no-op. */
  datatype EraseOne = Erased(node: Node, at: nat, removed: Link) | AtEnd

  /** `erase<K>(key)` for `K` = ID or AnyOrder: removes the one link found. */
  function EraseUnique(n: Node, k: Key, arg: KeyArg, dontResetOwner: bool): (r: EraseOne)
    requires k in {ID, AnyOrder} && KeyFits(k, arg)
    ensures r.AtEnd? <==> !Present(n, k, arg)
    ensures r.Erased? ==> Index(n, k, arg) == Some(r.at)
    ensures r.Erased? ==>
              var p := r.at;
              p < Size(n) && Size(r.node) == Size(n) - 1
              && r.node.links == n.links[..p] + n.links[p + 1..]
              && r.removed == Detach(n.links[p], dontResetOwner)
              && r.node.handle == n.handle
    ensures r.Erased? && Valid(n) ==> Valid(r.node)
    ensures r.Erased? && Valid(n) && k == ID ==> forall l :: l in r.node.links ==> l.id != arg.s
  {
    var p := Find(n, k, arg);
    if p == |n.links| then AtEnd
    else
      var rest := n.links[..p] + n.links[p + 1..];
      assert forall i :: 0 <= i < |rest| ==> rest[i] == n.links[if i < p then i else i + 1];
      Erased(Node(rest, n.handle), p, Detach(n.links[p], dontResetOwner))
  }

  /** The links of `s` whose key is not `v`, in order. */
  function Without(s: seq<Link>, key: Link -> string, v: string): (r: seq<Link>)
    ensures |r| + |Matching(s, key, v)| == |s|
    ensures forall i :: 0 <= i < |r| ==> key(r[i]) != v && r[i] in s
    ensures forall l :: l in s && key(l) != v ==> l in r
    decreases |s|
  {
    if |s| == 0 then []
    else
      var rest := Without(s[1..], key, v);
      assert forall i :: 0 <= i < |rest| ==> rest[i] in s[1..];
      assert forall l :: l in s && l != s[0] ==> l in s[1..];
      if key(s[0]) != v then [s[0]] + rest else rest
  }

  /** Dropping links never makes two ids equal. */
  lemma {:induction false} WithoutKeepsUniqueIds(s: seq<Link>, key: Link -> string, v: string)
    requires UniqueIds(s)
    ensures UniqueIds(Without(s, key, v))
    decreases |s|
  {
    if |s| > 0 {
      var tail := s[1..];
      var rest := Without(tail, key, v);
      assert UniqueIds(tail) by {
        forall i, j | 0 <= i < j < |tail| ensures tail[i].id != tail[j].id {
          assert tail[i] == s[i + 1] && tail[j] == s[j + 1];
        }
      }
      WithoutKeepsUniqueIds(tail, key, v);
      if key(s[0]) != v {
        forall j | 0 <= j < |rest| ensures rest[j].id != s[0].id {
          assert rest[j] in tail;
          var m :| 0 <= m < |tail| && tail[m] == rest[j];
          assert s[m + 1] == rest[j];
        }
        var r := [s[0]] + rest;
        forall i, j | 0 <= i < j < |r| ensures r[i].id != r[j].id {
          assert r[j] == rest[j - 1];
          if i > 0 {
            assert r[i] == rest[i - 1];
          }
        }
        assert Without(s, key, v) == r;
      } else {
        assert Without(s, key, v) == rest;
      }
    }
  }

  datatype EraseMany = EraseMany(node: Node, count: nat, removed: seq<Link>)

  /** `erase<K>(key)` for `K` = Name, OID or Type: removes every link of the
      key's equal range and returns how many it removed. */
  function EraseEqual(n: Node, k: Key, v: string, dontResetOwner: bool): (r: EraseMany)
    requires k in {Name, OID, Type}
    ensures r.count == |EqualRange(n, k, v)| == |r.removed|
    ensures Size(r.node) + r.count == Size(n)
    ensures forall l :: l in r.node.links ==> KeyOf(l, k) != v && l in n.links
    ensures forall l :: l in n.links && KeyOf(l, k) != v ==> l in r.node.links
    ensures forall i :: 0 <= i < r.count ==>
              r.removed[i] == Detach(EqualRange(n, k, v)[i], dontResetOwner)
    ensures r.node.handle == n.handle
    ensures Valid(n) ==> Valid(r.node)
  {
    var e := Extractor(k);
    var victims := EqualRange(n, k, v);
    assert Valid(n) ==> UniqueIds(Without(n.links, e, v)) by {
      if Valid(n) {
        WithoutKeepsUniqueIds(n.links, e, v);
      }
    }
    EraseMany(
      Node(Without(n.links, e, v), n.handle),
      |victims|,
      seq(|victims|, i requires 0 <= i < |victims| => Detach(victims[i], dontResetOwner)))
  }

  // -----------------------------------------------------------------------
  //  Rename

  /** `rename<K>(key, new_name)` for `K` = ID or AnyOrder: renames the link
      found, if any, and returns 0 or 1. Nothing but that link's name changes. */
  function RenameUnique(n: Node, k: Key, arg: KeyArg, newName: string): (r: (Node, nat))
    requires k in {ID, AnyOrder} && KeyFits(k, arg)
    ensures r.1 == (if Present(n, k, arg) then 1 else 0)
    ensures Size(r.0) == Size(n) && r.0.handle == n.handle
    ensures forall i :: 0 <= i < Size(n) ==>
              r.0.links[i] == (if Index(n, k, arg) == Some(i) then Rename(n.links[i], newName) else n.links[i])
    ensures Valid(n) ==> Valid(r.0)
  {
    var p := Find(n, k, arg);
    if p == |n.links| then (n, 0)
    else (Node(n.links[p := Rename(n.links[p], newName)], n.handle), 1)
  }

  /** Renames every link of `s` whose key is `v`. */
  function RenameMatching(s: seq<Link>, key: Link -> string, v: string, newName: string): (r: seq<Link>)
    ensures |r| == |s|
    ensures forall i :: 0 <= i < |s| ==> r[i] == (if key(s[i]) == v then Rename(s[i], newName) else s[i])
    decreases |s|
  {
    if |s| == 0 then []
    else [if key(s[0]) == v then Rename(s[0], newName) else s[0]]
         + RenameMatching(s[1..], key, v, newName)
  }

  /** `rename<K>(key, new_name)` for `K` = Name, OID or Type: renames every
      link of the key's equal range and returns how many it renamed. The
      name index is refreshed later, on the rename acknowledgement. */
  function RenameEqual(n: Node, k: Key, v: string, newName: string): (r: (Node, nat))
    requires k in {Name, OID, Type}
    ensures r.1 == |EqualRange(n, k, v)|
    ensures Size(r.0) == Size(n) && r.0.handle == n.handle
    ensures forall i :: 0 <= i < Size(n) ==>
              r.0.links[i] == (if KeyOf(n.links[i], k) == v then Rename(n.links[i], newName) else n.links[i])
    ensures Valid(n) ==> Valid(r.0)
  {
    var e := Extractor(k);
    (Node(RenameMatching(n.links, e, v, newName), n.handle), |EqualRange(n, k, v)|)
  }

  // -----------------------------------------------------------------------
  //  Rearrange

  predicate AllFound(n: Node, k: Key, order: seq<KeyArg>) {
    forall i :: 0 <= i < |order| ==> KeyFits(k, order[i]) && Present(n, k, order[i])
  }

  /** The links `new_order`'s keys address, in that order. */
  function Reordered(n: Node, k: Key, order: seq<KeyArg>): (r: seq<Link>)
    requires AllFound(n, k, order)
    ensures |r| == |order|
  {
    seq(|order|, i requires 0 <= i < |order| => n.links[Find(n, k, order[i])])
  }

  lemma UniqueIdsPermutation(a: seq<Link>, b: seq<Link>)
    requires multiset(a) == multiset(b)
    ensures UniqueIds(a) ==> UniqueIds(b)
  {
    if !UniqueIds(a) {
      return;
    }
    forall i, j | 0 <= i < j < |b| ensures b[i].id != b[j].id {
      if b[i].id == b[j].id {
        assert b[i] in multiset(a) && b[j] in multiset(a);
        var p :| 0 <= p < |a| && a[p] == b[i];
        var q :| 0 <= q < |a| && a[q] == b[j];
        if p == q {
          assert b[i] == b[j];
          MultisetTwice(b, i, j);
          MultisetOnce(a, p);
        }
      }
    }
  }

  lemma MultisetTwice(s: seq<Link>, i: nat, j: nat)
    requires i < j < |s| && s[i] == s[j]
    ensures multiset(s)[s[i]] >= 2
  {
    assert s == s[..i] + [s[i]] + s[i + 1..j] + [s[j]] + s[j + 1..];
  }

  lemma MultisetOnce(s: seq<Link>, p: nat)
    requires p < |s| && UniqueIds(s)
    ensures multiset(s)[s[p]] == 1
  {
    assert s == s[..p] + [s[p]] + s[p + 1..];
    assert s[p] !in s[..p] && s[p] !in s[p + 1..];
  }

  /** `rearrange<K>(new_order)`: every key of `new_order` is looked up, and
      the custom order becomes the links found for its first `size()` keys,
      in that order. The container reads only that many positions and
      demands that they form a permutation of the node's links; further
      keys are looked up but do not take part. The other views are
      unaffected. */
  function Rearrange(n: Node, k: Key, order: seq<KeyArg>): (r: Node)
    requires AllFound(n, k, order)
    requires |order| >= Size(n)
    requires multiset(Reordered(n, k, order)[..Size(n)]) == multiset(n.links)
    ensures Size(r) == Size(n)
    ensures forall i :: 0 <= i < Size(n) ==> Search(n, k, order[i]) == Some(r.links[i])
    ensures k == ID ==> forall i :: 0 <= i < Size(n) ==> r.links[i].id == order[i].s
    ensures Valid(n) ==> Valid(r)
    ensures r.handle == n.handle
  {
    var s := Reordered(n, k, order)[..Size(n)];
    UniqueIdsPermutation(n.links, s);
    Node(s, n.handle)
  }

  /** Keys past the first `size()` are only looked up: appending found keys
      to an accepted order is accepted too and gives the same node. */
  lemma {:induction false} RearrangeIgnoresTail(n: Node, k: Key, order: seq<KeyArg>, extra: seq<KeyArg>)
    requires AllFound(n, k, order) && AllFound(n, k, extra)
    requires |order| >= Size(n)
    requires multiset(Reordered(n, k, order)[..Size(n)]) == multiset(n.links)
    ensures AllFound(n, k, order + extra)
    ensures multiset(Reordered(n, k, order + extra)[..Size(n)]) == multiset(n.links)
    ensures Rearrange(n, k, order + extra) == Rearrange(n, k, order)
  {
    var all := order + extra;
    forall i | 0 <= i < |all| ensures KeyFits(k, all[i]) && Present(n, k, all[i]) {
      if i >= |order| { assert all[i] == extra[i - |order|]; }
    }
    assert Reordered(n, k, all)[..Size(n)] == Reordered(n, k, order)[..Size(n)];
  }

  /** Rearranging by the node's own ids in custom order changes nothing. */
  lemma RearrangeByOwnIds(n: Node)
    requires Valid(n)
    ensures var order := seq(Size(n), i requires 0 <= i < Size(n) => Str(n.links[i].id));
            AllFound(n, ID, order)
            && multiset(Reordered(n, ID, order)[..Size(n)]) == multiset(n.links)
            && Rearrange(n, ID, order) == n
  {
    var order := seq(Size(n), i requires 0 <= i < Size(n) => Str(n.links[i].id));
    forall i | 0 <= i < |order| ensures KeyFits(ID, order[i]) && Present(n, ID, order[i]) {
      assert KeyOf(n.links[i], ID) == order[i].s;
    }
    forall i | 0 <= i < |order| ensures Reordered(n, ID, order)[i] == n.links[i] {
      FindOwnId(n, i);
    }
    assert Reordered(n, ID, order)[..Size(n)] == n.links;
  }

  // -----------------------------------------------------------------------
  //  Insert

  /** `InsertPolicy` flags; they combine bitwise. */
  const AllowDupNames: bv8 := 0
  const DenyDupNames: bv8 := 1
  const RenameDup: bv8 := 2
  const DenyDupOID: bv8 := 4
  const ReplaceDupOID: bv8 := 8
  const Merge: bv8 := 16

  predicate HasPolicy(pol: bv8, flag: bv8) {
    pol & flag == flag
  }

  /** A combined policy carries each flag of either part, and the flags are
      independent bits. */
  lemma PolicyCombination(a: bv8, b: bv8)
    ensures forall f :: f in {DenyDupNames, RenameDup, DenyDupOID, ReplaceDupOID, Merge} ==>
              (HasPolicy(a | b, f) <==> HasPolicy(a, f) || HasPolicy(b, f))
    ensures HasPolicy(a, AllowDupNames)
  {
  }

  /** `insert_status`: the position of the link and whether a new entry was added. */
  datatype InsertStatus = InsertStatus(pos: nat, added: bool)

  /** The single-link insert whose policy handling is not part of this model. */
  type InsertFn = (Node, Link, bv8) -> (Node, InsertStatus)

  /** Container insert: inserts the elements one by one, in container order,
      all with the same policy. */
  function InsertAll(n: Node, ls: seq<Link>, pol: bv8, insert: InsertFn): Node
    decreases |ls|
  {
    if |ls| == 0 then n else InsertAll(insert(n, ls[0], pol).0, ls[1..], pol, insert)
  }

  /** Inserting `ls + [l]` is inserting `ls` and then `l`. */
  lemma {:induction false} InsertAllSnoc(n: Node, ls: seq<Link>, l: Link, pol: bv8, insert: InsertFn)
    ensures InsertAll(n, ls + [l], pol, insert) == insert(InsertAll(n, ls, pol, insert), l, pol).0
    decreases |ls|
  {
    if |ls| == 0 {
      assert ls + [l] == [l];
      assert [l][1..] == [];
    } else {
      assert (ls + [l])[1..] == ls[1..] + [l];
      InsertAllSnoc(insert(n, ls[0], pol).0, ls[1..], l, pol, insert);
    }
  }

  /** Inserting a concatenation inserts the first part, then the second. */
  lemma {:induction false} InsertAllAppend(n: Node, a: seq<Link>, b: seq<Link>, pol: bv8, insert: InsertFn)
    ensures InsertAll(n, a + b, pol, insert) == InsertAll(InsertAll(n, a, pol, insert), b, pol, insert)
    decreases |a|
  {
    if |a| > 0 {
      assert (a + b)[1..] == a[1..] + b;
      InsertAllAppend(insert(n, a[0], pol).0, a[1..], b, pol, insert);
    } else {
      assert a + b == b;
    }
  }
}

=== FILE: node_keys.dfy ===
/** The five views of a node's link container (kernel/include/bs/tree/node.h:54-95):
    the custom order itself, the hashed unique ID view and the ordered
    non-unique name, object-id and type views. Every view other than the
    custom order projects each link to a string key. */
module NodeKeys {
  import opened Links

  /** `node::Key`: which view a key addresses. */
  datatype Key = ID | OID | Name | Type | AnyOrder

  /** A key argument: a position for `AnyOrder`, a string for every other view. */
  datatype KeyArg = Pos(idx: nat) | Str(s: string)

  /** `Key_type<K>`: `AnyOrder` is keyed by a `size_t`, the others by a string
      (link ids are written as their UUID strings). */
  predicate KeyFits(k: Key, key: KeyArg) {
    (k == AnyOrder) == key.Pos?
  }

  /** The key extractors `id_key`, `name_key`, `oid_key` and `type_key`. */
  function KeyOf(l: Link, k: Key): string
    requires k != AnyOrder
  {
    match k
    case ID => l.id
    case Name => l.name
    case OID => Oid(l)
    case Type => ObjTypeId(l)
  }

  /** The key extractor of view `k` as a function value. */
  function Extractor(k: Key): Link -> string
    requires k != AnyOrder
  {
    l => KeyOf(l, k)
  }
}

=== FILE: objbase.dfy ===
/** `objbase` (kernel/src/objbase.cpp): the payload a link points to. An
    object has its own id, a marker telling whether it is a tree node, and
    the name of its dynamic type. */
module ObjBase {
  import opened Ids

  datatype Obj = Obj(id: string, isNode: bool, typeId: string)

  /** `objbase(bool is_node, std::string custom_oid)`: a non-empty custom oid
      becomes the id, an empty one is replaced by a generated id that is
      fresh with respect to `used`. */
  function NewObject(isNode: bool, customOid: string, typeId: string, used: seq<string>): (o: Obj)
    ensures |customOid| > 0 ==> o.id == customOid
    ensures |customOid| == 0 ==> o.id !in used && |o.id| > 0
    ensures o.isNode == isNode && o.typeId == typeId
  {
    Obj(if |customOid| > 0 then customOid else FreshId(used), isNode, typeId)
  }

  /** `objbase(std::string custom_oid)`: objects built from an oid string
      alone are never nodes. */
  function NewPlainObject(customOid: string, typeId: string, used: seq<string>): (o: Obj)
    ensures !o.isNode
    ensures |customOid| > 0 ==> o.id == customOid
    ensures |customOid| == 0 ==> o.id !in used
  {
    NewObject(false, customOid, typeId, used)
  }

  /** Copy constructor: the copy gets a fresh id (never the original's) and
      keeps the node marker and the type. */
  function CopyObject(o: Obj, used: seq<string>): (c: Obj)
    requires o.id in used
    ensures c.id != o.id && c.id !in used
    ensures c.isNode == o.isNode && c.typeId == o.typeId
  {
    Obj(FreshId(used), o.isNode, o.typeId)
  }

  /** `swap`: exchanges id and node marker; the dynamic type of each object
      stays where it is. */
  function Swap(a: Obj, b: Obj): (r: (Obj, Obj))
    ensures r.0.id == b.id && r.0.isNode == b.isNode && r.0.typeId == a.typeId
    ensures r.1.id == a.id && r.1.isNode == a.isNode && r.1.typeId == b.typeId
  {
    (Obj(b.id, b.isNode, a.typeId), Obj(a.id, a.isNode, b.typeId))
  }

  /** Swapping twice restores both objects. */
  lemma SwapInvolution(a: Obj, b: Obj)
    ensures Swap(Swap(a, b).0, Swap(a, b).1) == (a, b)
  {
  }
}

=== FILE: plugins.dfy ===
/** The kernel's plugin subsystem (kernel/src/kernel/plugins_subsyst.cpp):
    registering and unloading plugin descriptors, the types they provide,
    and loading plugin libraries. The dynamic library machinery is not part
    of this model: what probing a library finds enters as a `Probe`. */
module Plugins {
  import opened Wrappers
  import opened KernelTypes
  import Bindings
  import Errors

  /** `lib_descriptor`: the library's file name and whether it holds a
      valid handle. */
  datatype Lib = Lib(fname: string, hasHandle: bool)

  const NoLib: Lib := Lib("", false)

  /** An entry of `loaded_plugins_`. */
  datatype Plugin = Plugin(pd: PluginDescriptor, lib: Lib)

  /** The loaded plugins (one per name, in insertion order), the registered
      types, and the names of temporary (nil) plugins. */
  datatype Registry = Registry(loaded: seq<Plugin>, types: seq<TypeTuple>, temp: set<string>)

  const KernelName: string := "kernel"
  const RuntimeName: string := "runtime"

  predicate UniqueNames(ps: seq<Plugin>) {
    forall i, j :: 0 <= i < j < |ps| ==> ps[i].pd.name != ps[j].pd.name
  }

  predicate Valid(reg: Registry) {
    UniqueNames(reg.loaded)
  }

  function Names(ps: seq<Plugin>): set<string> {
    set p | p in ps :: p.pd.name
  }

  /** The position of the plugin with that name. */
  function Lookup(ps: seq<Plugin>, name: string): (r: Option<nat>)
    ensures r.None? <==> name !in Names(ps)
    ensures r.Some? ==> r.value < |ps| && ps[r.value].pd.name == name
    decreases |ps|
  {
    if |ps| == 0 then None
    else if ps[0].pd.name == name then Some(0)
    else
      var r := Lookup(ps[1..], name);
      assert forall p :: p in ps[1..] ==> p in ps;
      assert forall p :: p in ps && p != ps[0] ==> p in ps[1..];
      if r.Some? then Some(r.value + 1) else None
  }

  /** The types a plugin provides now refer to its (new) descriptor. */
  function Retag(types: seq<TypeTuple>, pd: PluginDescriptor): (r: seq<TypeTuple>)
    ensures |r| == |types|
    ensures forall i :: 0 <= i < |types| ==>
              r[i].td == types[i].td && r[i].plug.name == types[i].plug.name
              && (types[i].plug.name == pd.name ==> r[i].plug == pd)
              && (types[i].plug.name != pd.name ==> r[i].plug == types[i].plug)
    decreases |types|
  {
    if |types| == 0 then []
    else
      [if types[0].plug.name == pd.name then types[0].(plug := pd) else types[0]] + Retag(types[1..], pd)
  }

  function Inputs(ps: seq<Plugin>): (r: seq<Option<Bindings.Archives>>)
    ensures |r| == |ps| && forall i :: 0 <= i < |ps| ==> r[i] == ps[i].pd.input
  {
    seq(|ps|, i requires 0 <= i < |ps| => ps[i].pd.input)
  }

  function Outputs(ps: seq<Plugin>): (r: seq<Option<Bindings.Archives>>)
    ensures |r| == |ps| && forall i :: 0 <= i < |ps| ==> r[i] == ps[i].pd.output
  {
    seq(|ps|, i requires 0 <= i < |ps| => ps[i].pd.output)
  }

  /** `unify_serialization()`: unifies the input bindings, then the output
      bindings, of all loaded plugins. Names, nil flags and libraries stay. */
  method UnifySerialization(ps: seq<Plugin>) returns (r: seq<Plugin>)
    ensures |r| == |ps|
    ensures forall i :: 0 <= i < |ps| ==>
              r[i].lib == ps[i].lib && r[i].pd.name == ps[i].pd.name && r[i].pd.isNil == ps[i].pd.isNil
    ensures forall i :: 0 <= i < |ps| && ps[i].pd.input.Some? ==>
              r[i].pd.input.Some? && Bindings.Extends(r[i].pd.input.value, ps[i].pd.input.value)
              && Bindings.Covers(r[i].pd.input.value, Inputs(ps))
    ensures forall i :: 0 <= i < |ps| && ps[i].pd.output.Some? ==>
              r[i].pd.output.Some? && Bindings.Extends(r[i].pd.output.value, ps[i].pd.output.value)
              && Bindings.Covers(r[i].pd.output.value, Outputs(ps))
    ensures forall i :: 0 <= i < |ps| ==> (r[i].pd.input.None? <==> ps[i].pd.input.None?)
    ensures forall i :: 0 <= i < |ps| ==> (r[i].pd.output.None? <==> ps[i].pd.output.None?)
  {
    var ins := Bindings.UnifyBindings(Inputs(ps));
    var outs := Bindings.UnifyBindings(Outputs(ps));
    r := seq(|ps|, i requires 0 <= i < |ps| => ps[i].(pd := ps[i].pd.(input := ins[i], output := outs[i])));
  }

  lemma UnifyKeepsNames(ps: seq<Plugin>, r: seq<Plugin>)
    requires |r| == |ps|
    requires forall i :: 0 <= i < |ps| ==> r[i].pd.name == ps[i].pd.name
    ensures Names(r) == Names(ps)
    ensures UniqueNames(ps) ==> UniqueNames(r)
  {
    forall n | n in Names(ps) ensures n in Names(r) {
      var p :| p in ps && p.pd.name == n;
      var i :| 0 <= i < |ps| && ps[i] == p;
      assert r[i] in r;
    }
    forall n | n in Names(r) ensures n in Names(ps) {
      var p :| p in r && p.pd.name == n;
      var i :| 0 <= i < |r| && r[i] == p;
      assert ps[i] in ps;
    }
  }

  /** Whether `register_plugin` answers "inserted" for descriptor `pd` and
      library `ld`: the name is new, or it replaces a nil placeholder with a
      real descriptor, or it gives a handle-less entry a library handle. */
  predicate Inserts(ps: seq<Plugin>, pd: PluginDescriptor, ld: Lib) {
    match Lookup(ps, pd.name)
    case None => true
    case Some(i) => (ps[i].pd.isNil && !pd.isNil) || (!ps[i].lib.hasHandle && ld.hasHandle)
  }

  /** `register_plugin(pd, lib)`. A null descriptor is refused. A new name is
      inserted. A registered nil placeholder is replaced by a non-nil
      descriptor of the same name. A registered plugin without a library
      handle takes the new library when it has one, and nothing else
      happens. Otherwise nothing changes and the answer is "not inserted".
      After an insertion of a non-nil descriptor, the types registered under
      its name refer to it, it is no longer a temporary plugin, and the
      serialization bindings of all loaded plugins are unified. */
  method RegisterPlugin(reg: Registry, pd: Option<PluginDescriptor>, ld: Lib)
    returns (r: Registry, res: PluginDescriptor, inserted: bool)
    requires Valid(reg)
    ensures Valid(r)
    ensures pd.None? ==> r == reg && res == NilPlugin && !inserted
    ensures pd.Some? ==> res.name == pd.value.name && Names(r.loaded) == Names(reg.loaded) + {pd.value.name}
    ensures pd.Some? && pd.value.name !in Names(reg.loaded) ==>
              inserted && res == pd.value
              && (!res.isNil ==> res.name !in r.temp && r.types == Retag(reg.types, res))
    ensures pd.Some? && pd.value.name in Names(reg.loaded) ==>
              var old_ := reg.loaded[Lookup(reg.loaded, pd.value.name).value];
              (old_.pd.isNil && !pd.value.isNil ==>
                 inserted && res == pd.value && res.name !in r.temp && r.types == Retag(reg.types, res))
              && (!(old_.pd.isNil && !pd.value.isNil) && !old_.lib.hasHandle && ld.hasHandle ==>
                    inserted && res == old_.pd && r.types == reg.types && r.temp == reg.temp
                    && r.loaded == reg.loaded[Lookup(reg.loaded, pd.value.name).value := old_.(lib := ld)])
              && (!(old_.pd.isNil && !pd.value.isNil) && !(!old_.lib.hasHandle && ld.hasHandle) ==>
                    !inserted && res == old_.pd && r == reg)
    ensures pd.Some? ==> (inserted <==> Inserts(reg.loaded, pd.value, ld))
    ensures inserted && res == pd.value ==> exists i :: 0 <= i < |r.loaded| && r.loaded[i].pd.name == res.name && r.loaded[i].lib == ld
  {
    if pd.None? {
      return reg, NilPlugin, false;
    }
    var p := pd.value;
    var loaded := reg.loaded;
    var at := Lookup(loaded, p.name);
    var isNew := false;
    if at.None? {
      loaded := loaded + [Plugin(p, ld)];
      isNew := true;
      assert forall q :: q in loaded ==> q in reg.loaded || q == Plugin(p, ld);
      assert Names(loaded) == Names(reg.loaded) + {p.name};
      res := p;
    } else {
      var i := at.value;
      var e := loaded[i];
      if e.pd.isNil && !p.isNil {
        loaded := loaded[i := Plugin(p, ld)];
        isNew := true;
        res := p;
        SameNameUpdate(reg.loaded, i, Plugin(p, ld));
      } else if !e.lib.hasHandle && ld.hasHandle {
        loaded := loaded[i := e.(lib := ld)];
        SameNameUpdate(reg.loaded, i, e.(lib := ld));
        return reg.(loaded := loaded), e.pd, true;
      } else {
        assert e in reg.loaded;
        return reg, e.pd, false;
      }
    }
    inserted := isNew;
    r := reg.(loaded := loaded);
    assert UniqueNames(loaded);
    if !p.isNil {
      ghost var pos :| 0 <= pos < |loaded| && loaded[pos].pd.name == p.name && loaded[pos].lib == ld;
      var unified := UnifySerialization(loaded);
      UnifyKeepsNames(loaded, unified);
      r := Registry(unified, Retag(reg.types, p), reg.temp - {p.name});
      assert unified[pos].pd.name == p.name && unified[pos].lib == ld;
    }
  }

  lemma SameNameUpdate(ps: seq<Plugin>, i: nat, q: Plugin)
    requires i < |ps| && q.pd.name == ps[i].pd.name
    ensures Names(ps[i := q]) == Names(ps)
    ensures UniqueNames(ps) ==> UniqueNames(ps[i := q])
  {
    var qs := ps[i := q];
    forall n | n in Names(ps) ensures n in Names(qs) {
      var p :| p in ps && p.pd.name == n;
      var j :| 0 <= j < |ps| && ps[j] == p;
      assert qs[j] in qs;
    }
    forall n | n in Names(qs) ensures n in Names(ps) {
      var p :| p in qs && p.pd.name == n;
      var j :| 0 <= j < |qs| && qs[j] == p;
      assert ps[j] in ps;
    }
  }

  /** `clean_plugin_types(pd)`: drops the types of the named plugin, except
      that the kernel's own types are never dropped. */
  function CleanPluginTypes(types: seq<TypeTuple>, name: string): (r: seq<TypeTuple>)
    ensures name == KernelName ==> r == types
    ensures name != KernelName ==> forall t :: t in r <==> t in types && t.plug.name != name
    decreases |types|
  {
    if name == KernelName || |types| == 0 then types
    else
      var rest := CleanPluginTypes(types[1..], name);
      assert forall t :: t in types <==> t == types[0] || t in types[1..];
      if types[0].plug.name == name then rest else [types[0]] + rest
  }

  /** `unload_plugin(pd)`: an unknown plugin is ignored; otherwise its types
      are cleaned and it leaves the loaded set. */
  function UnloadPlugin(reg: Registry, name: string): (r: Registry)
    requires Valid(reg)
    ensures Valid(r)
    ensures name !in Names(reg.loaded) ==> r == reg
    ensures name in Names(reg.loaded) ==>
              Names(r.loaded) == Names(reg.loaded) - {name} && r.types == CleanPluginTypes(reg.types, name)
    ensures r.temp == reg.temp
  {
    match Lookup(reg.loaded, name)
    case None => reg
    case Some(i) =>
      var rest := reg.loaded[..i] + reg.loaded[i + 1..];
      assert forall j :: 0 <= j < |rest| ==> rest[j] == reg.loaded[if j < i then j else j + 1];
      RemovedNames(reg.loaded, i);
      Registry(rest, CleanPluginTypes(reg.types, name), reg.temp)
  }

  lemma RemovedNames(ps: seq<Plugin>, i: nat)
    requires i < |ps| && UniqueNames(ps)
    ensures Names(ps[..i] + ps[i + 1..]) == Names(ps) - {ps[i].pd.name}
  {
    var rest := ps[..i] + ps[i + 1..];
    assert forall j :: 0 <= j < |rest| ==> rest[j] == ps[if j < i then j else j + 1];
    forall n | n in Names(ps) - {ps[i].pd.name} ensures n in Names(rest) {
      var p :| p in ps && p.pd.name == n;
      var j :| 0 <= j < |ps| && ps[j] == p;
      assert j != i;
      assert rest[if j < i then j else j - 1] == p;
    }
  }

  /** What probing a plugin library finds: the message of an exception
      thrown while loading it,
      whether it exports `bs_get_plugin_descriptor`, the descriptor that
      function returns (none when it is not a plugin descriptor), whether it
      exports `bs_register_plugin`, and whether that function succeeds. */
  datatype Probe = Probe(
    loadError: Option<string>,
    hasDescriptorFn: bool,
    descriptor: Option<PluginDescriptor>,
    hasRegisterFn: bool,
    registerSucceeds: bool)

  /** The probe got as far as a real descriptor. */
  predicate HasDescriptor(p: Probe) {
    p.loadError.None? && p.hasDescriptorFn && p.descriptor.Some?
  }

  /** The probe passed every check before registration. */
  predicate Registrable(p: Probe) {
    HasDescriptor(p) && p.descriptor.value.name != KernelName && p.hasRegisterFn
  }

  /** What one `load_plugin(fname)` does to registry `reg` when the library
      probes as `p`, ending in registry `r` with error `err`: each failed
      check returns its error and leaves the registry alone; a descriptor
      `register_plugin` refuses is reported as already registered; a
      plugin whose registration function fails is registered and then
      unloaded; otherwise the plugin is loaded. */
  predicate Loaded(reg: Registry, fname: string, p: Probe, r: Registry, err: Errors.Error) {
    Valid(r)
    && (p.loadError.Some? ==> r == reg && err == Errors.Error(Errors.Generic, p.loadError.value))
    && (p.loadError.None? && !p.hasDescriptorFn ==> r == reg && err == Errors.Error(Errors.BadBSplugin, fname))
    && (p.loadError.None? && p.hasDescriptorFn && p.descriptor.None? ==>
          r == reg && err == Errors.Error(Errors.BadPluginDescriptor, fname))
    && (HasDescriptor(p) && p.descriptor.value.name == KernelName ==>
          r == reg && err == Errors.QuietError("load_plugin: cannot load kernel (already loaded)"))
    && (HasDescriptor(p) && p.descriptor.value.name != KernelName && !p.hasRegisterFn ==>
          r == reg && err == Errors.Error(Errors.BadBSplugin, fname + ": missing bs_register_plugin)"))
    && (Registrable(p) && !Inserts(reg.loaded, p.descriptor.value, Lib(fname, true)) ==>
          r == reg && err == Errors.Error(Errors.PluginAlreadyRegistered, fname))
    && (Registrable(p) && Inserts(reg.loaded, p.descriptor.value, Lib(fname, true)) && !p.registerSucceeds ==>
          err == Errors.Error(Errors.PluginRegisterFail, fname)
          && Names(r.loaded) == Names(reg.loaded) - {p.descriptor.value.name})
    && (Registrable(p) && Inserts(reg.loaded, p.descriptor.value, Lib(fname, true)) && p.registerSucceeds ==>
          err == Errors.Success && Names(r.loaded) == Names(reg.loaded) + {p.descriptor.value.name})
  }

  /** `load_plugin(fname)`: checks the library step by step, registers its
      descriptor, and runs its registration function; a plugin whose
      registration function fails is unloaded again. */
  method LoadPlugin(reg: Registry, fname: string, probe: Probe) returns (r: Registry, err: Errors.Error)
    requires Valid(reg)
    ensures Loaded(reg, fname, probe, r, err)
    ensures !err.Failed() <==> Registrable(probe) && Inserts(reg.loaded, probe.descriptor.value, Lib(fname, true))
                                 && probe.registerSucceeds
    ensures !err.Failed() ==> probe.descriptor.value.name in Names(r.loaded)
  {
    r := reg;
    match probe.loadError {
      case Some(msg) => return reg, Errors.Error(Errors.Generic, msg);
      case None =>
    }
    if !probe.hasDescriptorFn {
      return reg, Errors.Error(Errors.BadBSplugin, fname);
    }
    if probe.descriptor.None? {
      return reg, Errors.Error(Errors.BadPluginDescriptor, fname);
    }
    var pd := probe.descriptor.value;
    if pd.name == KernelName {
      return reg, Errors.QuietError("load_plugin: cannot load kernel (already loaded)");
    }
    if !probe.hasRegisterFn {
      return reg, Errors.Error(Errors.BadBSplugin, fname + ": missing bs_register_plugin)");
    }
    var res, inserted;
    r, res, inserted := RegisterPlugin(reg, Some(pd), Lib(fname, true));
    if !inserted {
      return reg, Errors.Error(Errors.PluginAlreadyRegistered, fname);
    }
    if !probe.registerSucceeds {
      r := UnloadPlugin(r, pd.name);
      return r, Errors.Error(Errors.PluginRegisterFail, fname);
    }
    err := Errors.Success;
  }

  /** `load_plugins()`: loads every discovered library in order, each load
      starting from the registry the previous one left, and reduces the
      failures to one error joining their messages with '\n'. `regs` lists
      the registry before each load and after the last. */
  method LoadPlugins(reg: Registry, fnames: seq<string>, probe: string -> Probe)
    returns (r: Registry, results: seq<Errors.Error>, err: Errors.Error, ghost regs: seq<Registry>)
    requires Valid(reg)
    ensures Valid(r)
    ensures |results| == |fnames| && |regs| == |fnames| + 1
    ensures regs[0] == reg && regs[|fnames|] == r
    ensures forall i :: 0 <= i < |fnames| ==> Loaded(regs[i], fnames[i], probe(fnames[i]), regs[i + 1], results[i])
    ensures !err.Failed() <==> forall i :: 0 <= i < |results| && results[i].Failed() ==> |results[i].what| == 0
    ensures err.Failed() ==> err.code == Errors.Quiet && err.what == Errors.JoinFailing(results)
  {
    r := reg;
    results := [];
    regs := [reg];
    var i := 0;
    while i < |fnames|
      invariant 0 <= i <= |fnames|
      invariant Valid(r)
      invariant |results| == i && |regs| == i + 1
      invariant regs[0] == reg && regs[i] == r
      invariant forall j :: 0 <= j < i ==> Loaded(regs[j], fnames[j], probe(fnames[j]), regs[j + 1], results[j])
    {
      var e, r1;
      r1, e := LoadPlugin(r, fnames[i], probe(fnames[i]));
      results := results + [e];
      regs := regs + [r1];
      r := r1;
      i := i + 1;
    }
    Errors.ReduceSuccess(results);
    err := Errors.Reduce(results);
  }
}

=== FILE: py_node.dfy ===
/** The Python face of the node (kernel/src/python/py_node.cpp): lookups that
    raise Python's `KeyError` or `IndexError`, and Python-style indexing
    from both ends computed in C++'s `long` and `size_t` arithmetic. */
module PyNode {
  import opened Wrappers
  import opened Links
  import opened NodeKeys
  import opened Node
  import ObjBase

  /** `size_t` is 64 bits wide, `long` is a signed 64-bit integer. */
  const SizeTModulus: int := 0x1_0000_0000_0000_0000
  const LongMin: int := -0x8000_0000_0000_0000
  const LongMax: int := 0x7fff_ffff_ffff_ffff

  predicate IsLong(i: int) {
    LongMin <= i <= LongMax
  }

  /** A container never holds more elements than `size_t` counts. */
  predicate Countable(n: Node) {
    Size(n) < SizeTModulus
  }

  datatype PyError = KeyError(msg: string) | IndexError

  const OutOfBounds: string := "Index out of bounds"

  /** `contains<K>`: whether the key answers in view `k`. */
  function Contains(n: Node, k: Key, key: string): (r: bool)
    requires k != AnyOrder
    ensures r <==> exists j :: 0 <= j < Size(n) && KeyOf(n.links[j], k) == key
  {
    Index(n, k, Str(key)).Some?
  }

  /** `contains_link`: a link is contained when its id is. */
  function ContainsLink(n: Node, l: Link): (r: bool)
    ensures r <==> exists j :: 0 <= j < Size(n) && n.links[j].id == l.id
    ensures Valid(n) && l in n.links ==> r
  {
    assert forall j :: 0 <= j < Size(n) ==> KeyOf(n.links[j], ID) == n.links[j].id;
    Contains(n, ID, l.id)
  }

  /** `contains_obj`: some link points to an object with this id. */
  function ContainsObj(n: Node, obj: ObjBase.Obj): (r: bool)
    ensures r <==> exists j :: 0 <= j < Size(n) && Oid(n.links[j]) == obj.id
  {
    assert forall j :: 0 <= j < Size(n) ==> KeyOf(n.links[j], OID) == Oid(n.links[j]);
    Contains(n, OID, obj.id)
  }

  /** The part of `find`'s error message that names the key's meaning. */
  function KeyPhrase(k: Key): string {
    match k
    case OID => "to object with ID = "
    case Name => "with name = "
    case Type => "with type = "
    case _ => "with ID = "
  }

  /** The `insert` bindings: the node's own insert, of whose result only the
      "added" flag reaches Python. */
  function InsertPy(n: Node, l: Link, pol: bv8, insert: InsertFn): (r: (Node, bool))
    ensures r.0 == InsertAll(n, [l], pol, insert)
    ensures r.1 <==> insert(n, l, pol).1.added
  {
    assert [l][1..] == [];
    var (m, st) := insert(n, l, pol);
    (m, st.added)
  }

  /** `find<K>`: the link found, or a `KeyError` naming the missing key. */
  function FindPy(n: Node, k: Key, key: string): (r: Result<Link, PyError>)
    requires k != AnyOrder
    ensures r.Ok? <==> Contains(n, k, key)
    ensures r.Ok? ==> KeyOf(r.value, k) == key && r.value in n.links
    ensures r.Err? ==> r.error == KeyError("Node doesn't contain link " + KeyPhrase(k) + key)
  {
    match Search(n, k, Str(key))
    case Some(l) => Ok(l)
    case None => Err(KeyError("Node doesn't contain link " + KeyPhrase(k) + key))
  }

  /** `idx < 0 ? N.size() + idx : size_t(idx)`, evaluated in `size_t`:
      a negative `long` converts modulo 2^64 before the addition. */
  function PositiveIdx(size: nat, idx: int): (p: nat)
    requires IsLong(idx) && size < SizeTModulus
    ensures 0 <= idx ==> p == idx
    ensures idx < 0 && 0 <= size + idx ==> p == size + idx
    ensures size + idx < 0 ==> p >= size
  {
    if idx < 0 then (size + idx % SizeTModulus) % SizeTModulus else idx
  }

  /** `find_by_idx`: Python indexing from both ends; any other index
      raises `KeyError("Index out of bounds")`. */
  function FindByIdx(n: Node, idx: int): (r: Result<Link, PyError>)
    requires IsLong(idx) && Countable(n)
    ensures r.Ok? <==> 0 <= Size(n) + idx && idx < Size(n)
    ensures r.Ok? ==> r.value == n.links[if idx < 0 then Size(n) + idx else idx]
    ensures r.Err? ==> r.error == KeyError(OutOfBounds)
  {
    var p := PositiveIdx(|n.links|, idx);
    if p < |n.links| then
      Ok(n.links[Find(n, AnyOrder, Pos(p))])
    else
      Err(KeyError(OutOfBounds))
  }

  /** `index<K>`: the custom-order position, or `IndexError`. */
  function IndexPy(n: Node, k: Key, key: string): (r: Result<nat, PyError>)
    requires k != AnyOrder
    ensures r.Ok? <==> Contains(n, k, key)
    ensures r.Ok? ==> r.value < Size(n) && KeyOf(n.links[r.value], k) == key
    ensures r.Err? ==> r.error == IndexError
  {
    match Index(n, k, Str(key))
    case Some(i) => Ok(i)
    case None => Err(IndexError)
  }

  /** A link's position is found again by indexing with it. */
  lemma IndexFindRoundTrip(n: Node, k: Key, key: string)
    requires k != AnyOrder && Countable(n) && Contains(n, k, key)
    ensures IndexPy(n, k, key).Ok?
    ensures var i := IndexPy(n, k, key).value;
            IsLong(i) ==> FindByIdx(n, i) == FindPy(n, k, key)
  {
  }

  function Abs(i: int): nat {
    if i < 0 then -i else i
  }

  /** Where `erase_idx` as written can end up: the node without one link, a
      raised Python error, or a call asking the node to erase at `end()`,
      whose outcome `erase_impl` (no range checking) leaves undefined. */
  datatype EraseOutcome = Removed(node: Node) | Raised(err: PyError) | ErasedAtEnd

  /** `erase_idx` as written: the guard rejects only `|idx| > size`, so
      `idx == size` gets through and asks the node to erase at `end()`.
      `abs` of the least `long` is undefined, hence its exclusion. */
  function EraseIdxAsWritten(n: Node, idx: int): (r: EraseOutcome)
    requires IsLong(idx) && idx != LongMin && Countable(n)
    ensures r.Raised? <==> Abs(idx) > Size(n)
    ensures r.Raised? ==> r.err == KeyError(OutOfBounds)
    ensures r.ErasedAtEnd? <==> idx == Size(n)
    ensures r.Removed? ==>
              var p := if idx < 0 then Size(n) + idx else idx;
              0 <= p < Size(n) && r.node.links == n.links[..p] + n.links[p + 1..]
  {
    if Abs(idx) > |n.links| then Raised(KeyError(OutOfBounds))
    else
      var p := if idx < 0 then |n.links| + idx else idx;
      match EraseUnique(n, AnyOrder, Pos(p), false)
      case Erased(m, _, _) => Removed(m)
      case AtEnd => ErasedAtEnd
  }

  /** The index one past the end passes `erase_idx`'s guard although
      `find_by_idx` rejects it: an empty node and index 0 show it. */
  lemma EraseIdxAcceptsEnd(n: Node)
    requires Countable(n) && Size(n) <= LongMax
    ensures EraseIdxAsWritten(n, Size(n)).ErasedAtEnd?
    ensures FindByIdx(n, Size(n)).Err?
  {
  }

  /** Apart from the index one past the end, the guard as written and the
      corrected one agree: same rejections, same resulting node. */
  lemma EraseIdxAgreesOffEnd(n: Node, idx: int)
    requires IsLong(idx) && idx != LongMin && Countable(n) && idx != Size(n)
    ensures EraseIdxAsWritten(n, idx).Raised? <==> EraseIdx(n, idx).Err?
    ensures EraseIdxAsWritten(n, idx).Removed? <==> EraseIdx(n, idx).Ok?
    ensures EraseIdx(n, idx).Ok? ==> EraseIdxAsWritten(n, idx) == Removed(EraseIdx(n, idx).value)
  {
  }

  /** `erase_idx` with the guard `find_by_idx` uses: it erases exactly the
      link `find_by_idx` finds, and rejects every index it rejects. */
  function EraseIdx(n: Node, idx: int): (r: Result<Node, PyError>)
    requires IsLong(idx) && Countable(n)
    ensures r.Ok? <==> FindByIdx(n, idx).Ok?
    ensures r.Err? ==> r.error == KeyError(OutOfBounds)
    ensures r.Ok? ==>
              var p := if idx < 0 then Size(n) + idx else idx;
              r.value.links == n.links[..p] + n.links[p + 1..]
    ensures r.Ok? && Valid(n) ==> Valid(r.value) && FindByIdx(n, idx).value !in r.value.links
  {
    if !(-|n.links| <= idx < |n.links|) then Err(KeyError(OutOfBounds))
    else
      var p := if idx < 0 then |n.links| + idx else idx;
      RemovedGone(n.links, p);
      match EraseUnique(n, AnyOrder, Pos(p), false)
      case Erased(m, _, _) => Ok(m)
      case AtEnd => assert false; Err(IndexError)
  }

  lemma RemovedGone(s: seq<Link>, p: nat)
    requires p < |s|
    ensures UniqueIds(s) ==> s[p] !in s[..p] + s[p + 1..]
  {
    if !UniqueIds(s) {
      return;
    }
    var rest := s[..p] + s[p + 1..];
    forall i | 0 <= i < |rest| ensures rest[i] != s[p] {
      assert rest[i] == s[if i < p then i else i + 1];
    }
  }
}

=== FILE: savers.dfy ===
/** The savers' manager of the filesystem archive
    (kernel/src/serialize/tree_fs_output.cpp, `savers_manager`). It counts
    started and finished object saves, collects the failing results, and
    answers the archive's final wait with the collected errors. Messages
    become events applied in arrival order; the response promise becomes a
    flag telling whether a wait is pending, and everything handed to the
    waiter is appended to `replies`. */
module Savers {
  import Errors

  datatype Manager = Manager(
    errs: seq<Errors.Error>,
    pending: bool,
    nstarted: nat,
    nfinished: nat,
    replies: seq<seq<Errors.Error>>)

  const Fresh: Manager := Manager([], false, 0, 0, [])

  datatype Event =
    | Start(hasFormatter: bool, typeId: string)  // a save job arrives
    | Finish(result: Errors.Error)               // a saver reports back
    | Ack                                        // the archive waits for all saves

  /** The error pushed when no formatter is installed for a job's type. */
  function MissingFormatter(typeId: string): Errors.Error {
    Errors.Error(Errors.MissingFormatter, typeId)
  }

  /** Every error an event contributes to the collection. */
  function Contributed(ev: Event): (r: seq<Errors.Error>)
    ensures forall e :: e in r ==> e.Failed()
  {
    match ev
    case Start(has, t) => if has then [] else [MissingFormatter(t)]
    case Finish(e) => if e.Failed() then [e] else []
    case Ack => []
  }

  function Flatten(xs: seq<seq<Errors.Error>>): seq<Errors.Error>
    decreases |xs|
  {
    if |xs| == 0 then [] else Flatten(xs[..|xs| - 1]) + xs[|xs| - 1]
  }

  function ContributedAll(evs: seq<Event>): seq<Errors.Error>
    decreases |evs|
  {
    if |evs| == 0 then [] else ContributedAll(evs[..|evs| - 1]) + Contributed(evs[|evs| - 1])
  }

  /** Save-job handler, common to both versions: a job counts as started
      only when a formatter is found; otherwise `MissingFormatter` is pushed. */
  function OnStart(m: Manager, hasFormatter: bool, typeId: string): (r: Manager)
    ensures hasFormatter ==> r == m.(nstarted := m.nstarted + 1)
    ensures !hasFormatter ==> r == m.(errs := m.errs + [MissingFormatter(typeId)])
  {
    if hasFormatter then m.(nstarted := m.nstarted + 1)
    else m.(errs := m.errs + [MissingFormatter(typeId)])
  }

  /** Acknowledgement handler, common to both versions: when every started
      save has finished the collection is handed over and emptied at once;
      otherwise the reply is deferred. */
  function OnAck(m: Manager): (r: Manager)
    ensures m.nfinished == m.nstarted ==> r.replies == m.replies + [m.errs] && r.errs == []
    ensures m.nfinished != m.nstarted ==> r == m.(pending := true)
    ensures r.nstarted == m.nstarted && r.nfinished == m.nfinished
  {
    if m.nfinished == m.nstarted then m.(errs := [], replies := m.replies + [m.errs])
    else m.(pending := true)
  }

  /** Finish handler as written: the last finisher cuts the collection and
      delivers it to the promise, which only reaches a waiter when one is
      pending. */
  function OnFinishAsWritten(m: Manager, e: Errors.Error): (r: Manager)
    ensures r.nfinished == m.nfinished + 1 && r.nstarted == m.nstarted
    ensures r.nfinished == r.nstarted ==> r.errs == [] && !r.pending
    ensures r.nfinished == r.nstarted && !m.pending ==> r.replies == m.replies
  {
    var errs := if e.Failed() then m.errs + [e] else m.errs;
    var n := m.nfinished + 1;
    if n == m.nstarted then
      Manager([], false, m.nstarted, n, if m.pending then m.replies + [errs] else m.replies)
    else m.(errs := errs, nfinished := n)
  }

  function StepAsWritten(m: Manager, ev: Event): Manager {
    match ev
    case Start(has, t) => OnStart(m, has, t)
    case Finish(e) => OnFinishAsWritten(m, e)
    case Ack => OnAck(m)
  }

  function RunAsWritten(m: Manager, evs: seq<Event>): Manager
    decreases |evs|
  {
    if |evs| == 0 then m else StepAsWritten(RunAsWritten(m, evs[..|evs| - 1]), evs[|evs| - 1])
  }

  /** A save that fails and finishes before the archive's wait arrives: the
      wait is answered with no errors although one was reported. */
  lemma ErrorLostBeforeAck()
    ensures var bad := Errors.Error(Errors.Quiet, "disk full");
            var evs := [Start(true, "T"), Finish(bad), Ack];
            ContributedAll(evs) == [bad]
            && RunAsWritten(Fresh, evs).replies == [[]]
  {
    var bad := Errors.Error(Errors.Quiet, "disk full");
    var evs := [Start(true, "T"), Finish(bad), Ack];
    assert evs[..2] == [Start(true, "T"), Finish(bad)];
    assert evs[..2][..1] == [Start(true, "T")];
    assert evs[..2][..1][..0] == [];
    assert RunAsWritten(Fresh, []) == Fresh;
    assert RunAsWritten(Fresh, [Start(true, "T")]) == StepAsWritten(Fresh, Start(true, "T"));
    var m1 := RunAsWritten(Fresh, evs[..1]);
    assert m1 == Fresh.(nstarted := 1);
    assert RunAsWritten(Fresh, evs[..2]) == OnFinishAsWritten(m1, bad);
    var m2 := RunAsWritten(Fresh, evs[..2]);
    assert m2 == Manager([], false, 1, 1, []);
    assert RunAsWritten(Fresh, evs) == OnAck(m2);
    assert ContributedAll(evs[..1]) == [];
    assert ContributedAll(evs[..2]) == [bad];
  }

  /** Corrected finish handler: the collection is handed over and emptied
      only when a waiter is pending; otherwise it is kept for the
      acknowledgement. */
  function OnFinish(m: Manager, e: Errors.Error): (r: Manager)
    ensures r.nfinished == m.nfinished + 1 && r.nstarted == m.nstarted
    ensures Flatten(r.replies) + r.errs == Flatten(m.replies) + m.errs + (if e.Failed() then [e] else [])
  {
    var errs := if e.Failed() then m.errs + [e] else m.errs;
    var n := m.nfinished + 1;
    if n == m.nstarted && m.pending then
      assert Flatten(m.replies + [errs]) == Flatten(m.replies) + errs;
      Manager([], false, m.nstarted, n, m.replies + [errs])
    else m.(errs := errs, nfinished := n)
  }

  function Step(m: Manager, ev: Event): Manager {
    match ev
    case Start(has, t) => OnStart(m, has, t)
    case Finish(e) => OnFinish(m, e)
    case Ack => OnAck(m)
  }

  function Run(m: Manager, evs: seq<Event>): Manager
    decreases |evs|
  {
    if |evs| == 0 then m else Step(Run(m, evs[..|evs| - 1]), evs[|evs| - 1])
  }

  /** No step loses an error: what was handed to the waiter followed by what
      is still collected grows by exactly the event's contribution. */
  lemma StepKeepsErrors(m: Manager, ev: Event)
    ensures Flatten(Step(m, ev).replies) + Step(m, ev).errs == Flatten(m.replies) + m.errs + Contributed(ev)
  {
    match ev
    case Start(has, t) => {
      if !has {
        assert Flatten(m.replies) + (m.errs + [MissingFormatter(t)]) == Flatten(m.replies) + m.errs + [MissingFormatter(t)];
      }
    }
    case Finish(e) => {}
    case Ack => {
      if m.nfinished == m.nstarted {
        assert Flatten(m.replies + [m.errs]) == Flatten(m.replies) + m.errs;
      }
    }
  }

  /** Over any sequence of events, every reported failure is either handed
      to the waiter or still collected, in arrival order. */
  lemma {:induction false} RunKeepsErrors(evs: seq<Event>)
    ensures Flatten(Run(Fresh, evs).replies) + Run(Fresh, evs).errs == ContributedAll(evs)
    decreases |evs|
  {
    if |evs| > 0 {
      var init := evs[..|evs| - 1];
      RunKeepsErrors(init);
      StepKeepsErrors(Run(Fresh, init), evs[|evs| - 1]);
    }
  }

  /** An acknowledgement arriving after every started save has finished is
      answered at once with every failure reported so far. */
  lemma AckAfterAllFinishedReportsAll(evs: seq<Event>)
    requires Run(Fresh, evs).nfinished == Run(Fresh, evs).nstarted
    requires Run(Fresh, evs).replies == []
    ensures Run(Fresh, evs + [Ack]).replies == [ContributedAll(evs)]
  {
    RunKeepsErrors(evs);
    var all := evs + [Ack];
    assert all[..|all| - 1] == evs && all[|all| - 1] == Ack;
    assert Run(Fresh, all) == Step(Run(Fresh, evs), Ack);
    var m := Run(Fresh, evs);
    assert Flatten(m.replies) == [];
    assert m.errs == ContributedAll(evs);
    assert OnAck(m).replies == [] + [m.errs];
  }

  /** `wait_objects_saved()`: the collected errors, or the single error of a
      failed request. */
  function WaitObjectsSaved(reply: Errors.Error, replied: seq<Errors.Error>): (r: seq<Errors.Error>)
    ensures reply.Failed() ==> r == [reply]
    ensures !reply.Failed() ==> r == replied
    ensures (forall i :: 0 <= i < |replied| ==> replied[i].Failed()) ==> forall i :: 0 <= i < |r| ==> r[i].Failed()
  {
    if reply.Failed() then [reply] else replied
  }

  /** When the wait is answered after every save finished, the archive's
      wait returns exactly the failures reported, in arrival order, and
      nothing that succeeded. */
  lemma WaitReportsEveryFailure(evs: seq<Event>)
    requires Run(Fresh, evs).nfinished == Run(Fresh, evs).nstarted
    requires Run(Fresh, evs).replies == []
    ensures var w := WaitObjectsSaved(Errors.Success, Run(Fresh, evs + [Ack]).replies[0]);
            w == ContributedAll(evs) && forall i :: 0 <= i < |w| ==> w[i].Failed()
  {
    AckAfterAllFinishedReportsAll(evs);
    ContributedAllFail(evs);
  }

  lemma {:induction false} ContributedAllFail(evs: seq<Event>)
    ensures forall i :: 0 <= i < |ContributedAll(evs)| ==> ContributedAll(evs)[i].Failed()
    decreases |evs|
  {
    if |evs| > 0 {
      var init := evs[..|evs| - 1];
      ContributedAllFail(init);
      var c := Contributed(evs[|evs| - 1]);
      forall i | 0 <= i < |ContributedAll(evs)| ensures ContributedAll(evs)[i].Failed() {
        if i >= |ContributedAll(init)| {
          assert ContributedAll(evs)[i] in c;
        }
      }
    }
  }
}

=== FILE: strings.dfy ===
/** String utilities the kernel takes from the C++ standard library:
    the lexicographic `operator<` of `std::string` (used by every ordered
    index and by `type_descriptor::operator<`) and `std::to_string` on
    non-negative integers. */
module Strings {

  /** `a < b` for `std::string`: lexicographic on characters, a proper
      prefix is smaller. */
  predicate LexLess(a: string, b: string)
    decreases |a|
  {
    if |a| == 0 then |b| > 0
    else if |b| == 0 then false
    else if a[0] < b[0] then true
    else if a[0] == b[0] then LexLess(a[1..], b[1..])
    else false
  }

  predicate LexLe(a: string, b: string) {
    a == b || LexLess(a, b)
  }

  lemma {:induction false} LexLessIrreflexive(a: string)
    ensures !LexLess(a, a)
    decreases |a|
  {
    if |a| > 0 {
      LexLessIrreflexive(a[1..]);
    }
  }

  lemma {:induction false} LexLessTransitive(a: string, b: string, c: string)
    requires LexLess(a, b) && LexLess(b, c)
    ensures LexLess(a, c)
    decreases |a|
  {
    if |a| > 0 && |b| > 0 && |c| > 0 && a[0] == b[0] && b[0] == c[0] {
      LexLessTransitive(a[1..], b[1..], c[1..]);
    }
  }

  /** Any two different strings are ordered one way or the other. */
  lemma {:induction false} LexLessTotal(a: string, b: string)
    requires a != b
    ensures LexLess(a, b) || LexLess(b, a)
    decreases |a|
  {
    if |a| > 0 && |b| > 0 && a[0] == b[0] {
      assert a == [a[0]] + a[1..];
      assert b == [b[0]] + b[1..];
      LexLessTotal(a[1..], b[1..]);
    }
  }

  lemma LexLeTransitive(a: string, b: string, c: string)
    requires LexLe(a, b) && LexLe(b, c)
    ensures LexLe(a, c)
  {
    if a != b && b != c {
      LexLessTransitive(a, b, c);
    }
  }

  /** Strict order and the non-strict order of the other direction exclude
      each other: `<` is asymmetric. */
  lemma LexLessAsymmetric(a: string, b: string)
    requires LexLess(a, b)
    ensures !LexLe(b, a)
  {
    LexLessIrreflexive(a);
    if LexLess(b, a) {
      LexLessTransitive(a, b, a);
    }
  }

  function DigitChar(d: nat): char
    requires d < 10
  {
    "0123456789"[d]
  }

  /** `std::to_string` for a non-negative integer: decimal, no leading zeros. */
  function NatToString(n: nat): (r: string)
    ensures |r| > 0
    ensures forall i :: 0 <= i < |r| ==> '0' <= r[i] <= '9'
    decreases n
  {
    if n < 10 then [DigitChar(n)] else NatToString(n / 10) + [DigitChar(n % 10)]
  }
}

=== FILE: sym_link.dfy ===
/** Symbolic links (kernel/src/tree/sym_link.cpp): a link that stores a path
    and reaches its source link by resolving that path from its owner node.
    Path resolution (`deref_path`) is not part of this model and enters as a
    parameter: it may throw, return null, or return a link. */
module SymLink {
  import opened Wrappers
  import opened Links
  import Errors
  import Ids
  import ObjBase

  /** The outcome of `deref_path(path, owner)`. */
  datatype Deref = Thrown(err: Errors.Error) | NullLink | Found(link: Link)

  /** `deref_path` from a path and the owner node's identity (none for a
      link without owner). */
  type DerefFn = (string, Option<string>) -> Deref

  /** `sym_link(name, path, flags)`: a new link has no owner, so its path
      resolves to nothing yet. */
  function NewSymLink(name: string, path: string, f: nat, used: seq<string>): (l: Link)
    ensures l.variant == Sym(path, None) && l.name == name && l.flags == f
    ensures l.id !in used && l.owner.None?
    ensures LinkTypeId(l) == "sym_link"
  {
    SetFlags(NewLink(name, Sym(path, None), used), f)
  }

  /** `sym_link_impl::pointee()`: an unowned link is unbound; an exception
      from path resolution is returned as the error; a null result means the
      source link expired. */
  function SymPointee(l: Link, deref: DerefFn): (r: Result<Link, Errors.Error>)
    requires l.variant.Sym?
    ensures r.Ok? ==> l.owner.Some? && deref(l.variant.path, l.owner) == Found(r.value)
    ensures r.Err? && l.owner.None? ==> r.error.code == Errors.UnboundSymLink
    ensures r.Err? && l.owner.Some? ==>
              match deref(l.variant.path, l.owner)
              case Thrown(e) => r.error == e
              case NullLink => r.error.code == Errors.LinkExpired
              case Found(_) => false
  {
    if l.owner.None? then Err(Errors.Raise(Errors.UnboundSymLink))
    else
      match deref(l.variant.path, l.owner)
      case Thrown(e) => Err(e)
      case Found(src) => Ok(src)
      case NullLink => Err(Errors.Raise(Errors.LinkExpired))
  }

  /** `pointee().and_then(f)`: how `data()` (with `f` = the source link's
      `data_ex`) and the actor's `data_node_gid()` forward to the source
      link. A failed resolution is returned unchanged. */
  function ViaPointee<T>(l: Link, deref: DerefFn, f: Link -> Result<T, Errors.Error>): (r: Result<T, Errors.Error>)
    requires l.variant.Sym?
    ensures SymPointee(l, deref).Err? ==> r == Err(SymPointee(l, deref).error)
    ensures SymPointee(l, deref).Ok? ==> r == f(SymPointee(l, deref).value)
    ensures r.Ok? ==> l.owner.Some?
  {
    match SymPointee(l, deref)
    case Ok(src) => f(src)
    case Err(e) => Err(e)
  }

  /** `sym_link_impl::data()` */
  function SymData(l: Link, deref: DerefFn, dataEx: Link -> Result<Option<ObjBase.Obj>, Errors.Error>): Result<Option<ObjBase.Obj>, Errors.Error>
    requires l.variant.Sym?
  {
    ViaPointee(l, deref, dataEx)
  }

  /** The object a result of `data()` carries: a null pointer and an error
      both give `None` (`link::data()` drops the error). */
  function ObjOf(d: Result<Option<ObjBase.Obj>, Errors.Error>): Option<ObjBase.Obj> {
    if d.Ok? then d.value else None
  }

  /** A symbolic link's `resolved` view agrees with resolving its path from
      its current owner. */
  predicate Coherent(l: Link, deref: DerefFn, dataEx: Link -> Result<Option<ObjBase.Obj>, Errors.Error>) {
    l.variant.Sym? && l.variant.resolved == ObjOf(SymData(l, deref, dataEx))
  }

  /** `link::oid()` of a symbolic link, computed by resolving the path: the
      id of the object `data()` yields, the nil UUID when resolution fails
      or yields no object. */
  function SymOid(l: Link, deref: DerefFn, dataEx: Link -> Result<Option<ObjBase.Obj>, Errors.Error>): (r: string)
    requires l.variant.Sym?
    ensures l.owner.None? ==> r == Ids.NilUuid
    ensures SymPointee(l, deref).Err? ==> r == Ids.NilUuid
    ensures SymPointee(l, deref).Ok? ==>
              r == match dataEx(SymPointee(l, deref).value)
                   case Ok(Some(o)) => o.id
                   case _ => Ids.NilUuid
  {
    match SymData(l, deref, dataEx)
    case Ok(Some(o)) => o.id
    case _ => Ids.NilUuid
  }

  /** For a coherent symbolic link the generic `Links.Oid`/`Links.ObjTypeId`
      (and hence the OID and Type views of a node) give what resolving the
      path gives. */
  lemma CoherentOid(l: Link, deref: DerefFn, dataEx: Link -> Result<Option<ObjBase.Obj>, Errors.Error>)
    requires Coherent(l, deref, dataEx)
    ensures Oid(l) == SymOid(l, deref, dataEx)
    ensures Pointee(l) == ObjOf(SymData(l, deref, dataEx))
  {
  }

  /** A link without owner is coherent exactly when its view is empty: it
      resolves to nothing, whatever `deref_path` would do. */
  lemma UnownedCoherent(l: Link, deref: DerefFn, dataEx: Link -> Result<Option<ObjBase.Obj>, Errors.Error>)
    requires l.variant.Sym? && l.owner.None?
    ensures Coherent(l, deref, dataEx) <==> l.variant.resolved.None?
  {
  }

  /** A copied symbolic link has no owner and an empty view, so it is
      coherent whatever path resolution would do. */
  lemma CopyCoherent(l: Link, used: seq<string>, deref: DerefFn,
                     dataEx: Link -> Result<Option<ObjBase.Obj>, Errors.Error>)
    requires l.variant.Sym? && l.id in used
    ensures Coherent(CopyLink(l, used), deref, dataEx)
  {
    UnownedCoherent(CopyLink(l, used), deref, dataEx);
  }

  /** `sym_link::clone()`: there is no deep copy; the clone has the same
      name, path and flags (unlike the copy constructor, which resets flags)
      and a fresh id. Having no owner, it resolves to nothing. */
  function CloneSym(l: Link, used: seq<string>): (c: Link)
    requires l.variant.Sym? && l.id in used
    ensures c.id != l.id && c.id !in used
    ensures c.name == l.name && c.flags == l.flags
    ensures c.variant == Sym(l.variant.path, None)
    ensures c.owner.None? && LinkTypeId(c) == "sym_link"
  {
    NewSymLink(l.name, l.variant.path, l.flags, used)
  }

  /** `sym_link::check_alive()`: resolves the path from the current owner and
      forces the `Data` status to `OK` or `Error` accordingly. An exception
      from resolution propagates. */
  function CheckAlive(l: Link, deref: DerefFn): (r: Result<(bool, Link), Errors.Error>)
    requires l.variant.Sym?
    ensures r.Err? <==> deref(l.variant.path, l.owner).Thrown?
    ensures r.Ok? ==> (r.value.0 <==> deref(l.variant.path, l.owner).Found?)
    ensures r.Ok? ==> r.value.1.status.Get(Data) == (if r.value.0 then OK else Error)
    ensures r.Ok? ==> r.value.1.status.Get(DataNode) == l.status.Get(DataNode)
    ensures r.Ok? ==> r.value.1 == l.(status := r.value.1.status)
  {
    match deref(l.variant.path, l.owner)
    case Thrown(e) => Err(e)
    case d =>
      var alive := d.Found?;
      var s := if alive then OK else Error;
      ResetIfNeqToSelfLands(l, Data, s);
      Ok((alive, RsResetIfNeq(l, Data, s, s).1))
  }

  /** After `check_alive` a bound link's `Data` status is `OK` exactly when
      `pointee()` succeeds. */
  lemma CheckAliveAgreesWithPointee(l: Link, deref: DerefFn)
    requires l.variant.Sym? && l.owner.Some?
    requires CheckAlive(l, deref).Ok?
    ensures CheckAlive(l, deref).value.1.status.Get(Data) == OK <==> SymPointee(l, deref).Ok?
  {
  }

  /** What `sym_link::reset_owner()` leaves behind: the link, which holds the
      new owner in every case, and the exception path resolution threw, if
      any. */
  datatype OwnerReset = OwnerReset(link: Link, thrown: Option<Errors.Error>)

  /** `sym_link::reset_owner()`: sets the owner first, then re-checks
      liveness from the new owner. When resolution throws, the exception
      propagates from a link that already has the new owner and untouched
      status slots. The `resolved` view is refreshed from the new owner in
      both cases, so the link is coherent. */
  function SymResetOwner(l: Link, owner: Option<string>, deref: DerefFn,
                         dataEx: Link -> Result<Option<ObjBase.Obj>, Errors.Error>): (r: OwnerReset)
    requires l.variant.Sym?
    ensures r.thrown.Some? <==> deref(l.variant.path, owner).Thrown?
    ensures r.thrown.Some? ==> r.thrown.value == deref(l.variant.path, owner).err && r.link.status == l.status
    ensures r.link.owner == owner && r.link.id == l.id && r.link.name == l.name && r.link.flags == l.flags
    ensures r.link.variant.Sym? && r.link.variant.path == l.variant.path
    ensures r.thrown.None? ==>
              (r.link.status.Get(Data) == OK <==> deref(l.variant.path, owner).Found?)
              && r.link.status.Get(DataNode) == l.status.Get(DataNode)
    ensures Coherent(r.link, deref, dataEx)
  {
    var moved := ResetOwner(l, owner);
    var viewed := moved.(variant := Sym(l.variant.path, ObjOf(SymData(moved, deref, dataEx))));
    match CheckAlive(viewed, deref)
    case Ok((_, l2)) => OwnerReset(l2, None)
    case Err(e) => OwnerReset(viewed, Some(e))
  }

  /** `sym_link::src_path()`: the stored path, or, in human-readable form, the
      path converted relative to the owner's handle (empty without owner).
      The conversion is a parameter. */
  function SrcPath(l: Link, humanReadable: bool, convert: (string, string) -> string): (r: string)
    requires l.variant.Sym?
    ensures !humanReadable ==> r == l.variant.path
    ensures humanReadable && l.owner.None? ==> r == ""
    ensures humanReadable && l.owner.Some? ==> r == convert(l.variant.path, l.owner.value)
  {
    if !humanReadable then l.variant.path
    else if l.owner.Some? then convert(l.variant.path, l.owner.value)
    else ""
  }
}

=== FILE: tree_serial.dfy ===
/** Saving and loading a tree (kernel/src/serialize/tree.cpp). The archive
    walk, the file streams and the cereal archives are not part of this
    model: their outcomes enter as parameters. What is modelled is the
    dispatch on the archive kind, the choice of encoding, the reduction of
    the directory archive's errors, and the shape of the results. */
module TreeSerial {
  import opened Wrappers
  import Errors
  import Links

  /** `TreeArchive` */
  datatype TreeArchive = FS | Binary | Text

  /** The cereal archive a generic save or load uses. */
  datatype Encoding = PortableBinary | Json

  /** A generic archive's stream mode (binary or text) and encoding. */
  datatype Mode = Mode(binary: bool, enc: Encoding)

  /** The stream mode and encoding `save_generic` picks. */
  function SaveEncoding(ar: TreeArchive): (r: Mode)
    requires ar != FS
    ensures r.binary <==> ar == Binary
    ensures r.enc == PortableBinary <==> ar == Binary
  {
    if ar == Binary then Mode(true, PortableBinary) else Mode(false, Json)
  }

  /** The stream mode and encoding `load_generic` picks. */
  function LoadEncoding(ar: TreeArchive): (r: Mode)
    requires ar != FS
    ensures r.binary <==> ar == Binary
    ensures r.enc == PortableBinary <==> ar == Binary
  {
    match ar
    case Binary => Mode(true, PortableBinary)
    case _ => Mode(false, Json)
  }

  /** A tree is read back in the encoding it was written in. */
  lemma EncodingsAgree(ar: TreeArchive)
    requires ar != FS
    ensures SaveEncoding(ar) == LoadEncoding(ar)
  {
  }

  /** How the directory-archive write went: it ran to the end and the wait
      returned the savers' errors, or it threw before that. */
  datatype FsRun = Completed(waited: seq<Errors.Error>) | Threw(err: Errors.Error)

  /** The errors `save_fs` reduces: those the wait returned, or the thrown
      one alone (the list is assigned only once the wait returns). */
  function FsErrors(run: FsRun): (r: seq<Errors.Error>)
    ensures run.Completed? ==> r == run.waited
    ensures run.Threw? ==> r == [run.err]
  {
    match run
    case Completed(w) => w
    case Threw(e) => [e]
  }

  /** `save_fs`: success exactly when no failing error carries a message;
      otherwise a quiet error whose message joins the failing messages. */
  function SaveFs(run: FsRun): (r: Errors.Error)
    ensures !r.Failed() <==>
              forall i :: 0 <= i < |FsErrors(run)| && FsErrors(run)[i].Failed() ==> |FsErrors(run)[i].what| == 0
    ensures r.Failed() ==> r.code == Errors.Quiet && r.what == Errors.JoinFailing(FsErrors(run))
    ensures run.Threw? && run.err.Failed() && |run.err.what| > 0 ==> r == Errors.QuietError(run.err.what)
  {
    var errs := FsErrors(run);
    Errors.ReduceSuccess(errs);
    assert run.Threw? ==> errs[..0] == [];
    Errors.Reduce(errs)
  }

  /** `save_actor`'s work, and the result `save_tree` returns: the
      directory archive for `FS`, the generic archive otherwise. The
      callback runs afterwards and its outcome is discarded. */
  function SaveTree(ar: TreeArchive, fs: FsRun, generic: Mode -> Errors.Error,
                    cb: Option<(Links.Link, Errors.Error) -> Errors.Error>, root: Links.Link): (r: Errors.Error)
    ensures ar == FS ==> r == SaveFs(fs)
    ensures ar != FS ==> r == generic(SaveEncoding(ar))
  {
    var er := if ar == FS then SaveFs(fs) else generic(SaveEncoding(ar));
    var _ := if cb.Some? then cb.value(root, er) else Errors.Success;
    er
  }

  /** A failing user callback does not change what is returned. */
  lemma CallbackDoesNotMatter(ar: TreeArchive, fs: FsRun, generic: Mode -> Errors.Error,
                              cb1: Option<(Links.Link, Errors.Error) -> Errors.Error>,
                              cb2: Option<(Links.Link, Errors.Error) -> Errors.Error>, root: Links.Link)
    ensures SaveTree(ar, fs, generic, cb1, root) == SaveTree(ar, fs, generic, cb2, root)
  {
  }

  /** `load_tree`: the loaded link when the load reported success, the
      error otherwise. `fs` and `generic` are the outcomes of `load_fs`
      and `load_generic`. */
  function LoadTree(ar: TreeArchive, fs: (Errors.Error, Links.Link),
                    generic: Mode -> (Errors.Error, Links.Link)): (r: Result<Links.Link, Errors.Error>)
    ensures var (er, l) := if ar == FS then fs else generic(LoadEncoding(ar));
            (r.Ok? <==> !er.Failed()) && (r.Ok? ==> r.value == l) && (r.Err? ==> r.error == er)
  {
    var (er, l) := if ar == FS then fs else generic(LoadEncoding(ar));
    if !er.Failed() then Ok(l) else Err(er)
  }
}

=== FILE: type_info.dfy ===
/** Type descriptors (kernel/src/type_info.cpp). A descriptor has a name,
    a parent function and a `std::type_index`; a descriptor whose parent
    function is the nil tag is "nil" and ends every parent chain. */
module TypeInfo {
  import opened Strings

  /** `BS_NIL_TYPE_TAG` */
  const NilTypeName: string := "__blue_sky_nil_type__"

  /** `std::type_index`: the nil type's index or the index of some other type. */
  datatype TypeIndex = NilIndex | Index(tag: string)

  /** The parent function: the nil tag `&type_descriptor::nil`, or a
      function returning a parent descriptor. */
  datatype ParentFn = NilTag | ParentOf(td: TypeDescriptor)

  datatype TypeDescriptor = TypeDescriptor(name: string, parent: ParentFn, info: TypeIndex)

  /** `type_descriptor::nil()` */
  const Nil: TypeDescriptor := TypeDescriptor(NilTypeName, NilTag, NilIndex)

  predicate IsNil(td: TypeDescriptor) {
    td.parent.NilTag?
  }

  predicate IsNilIndex(t: TypeIndex) {
    t.NilIndex?
  }

  /** Constructor from a type name alone, used for searching: the result is nil. */
  function FromName(name: string): (td: TypeDescriptor)
    ensures IsNil(td) && td.name == name && IsNilIndex(td.info)
  {
    TypeDescriptor(name, NilTag, NilIndex)
  }

  /** `parent_td()`: calling the parent function; the nil tag yields `Nil`. */
  function ParentTd(td: TypeDescriptor): TypeDescriptor {
    match td.parent
    case NilTag => Nil
    case ParentOf(p) => p
  }

  /** Descriptor equality, taken to be name equality (the key `operator<` orders by). */
  predicate SameType(a: TypeDescriptor, b: TypeDescriptor) {
    a.name == b.name
  }

  /** `operator<` compares names only. */
  predicate Less(a: TypeDescriptor, b: TypeDescriptor) {
    LexLess(a.name, b.name)
  }

  lemma NilIsNil()
    ensures IsNil(Nil) && Nil.name == "__blue_sky_nil_type__"
  {
  }

  /** Descriptors whose names differ are ordered by `operator<` one way or the
      other, and never both ways. */
  lemma LessIsStrictTotalOnNames(a: TypeDescriptor, b: TypeDescriptor)
    ensures !SameType(a, b) ==> (Less(a, b) || Less(b, a))
    ensures Less(a, b) ==> !Less(b, a) && !SameType(a, b)
  {
    if !SameType(a, b) {
      LexLessTotal(a.name, b.name);
    }
    if Less(a, b) {
      LexLessAsymmetric(a.name, b.name);
    }
  }

  /** The descriptors the upcast walk visits starting at `cur`: `cur` and its
      parents, up to (and excluding) the first nil one. */
  function Chain(cur: TypeDescriptor): seq<TypeDescriptor>
    decreases cur
  {
    if IsNil(cur) then [] else [cur] + Chain(cur.parent.td)
  }

  /** Reference definition of `upcastable_eq(a, b)`: `a` is `b` or one of the
      non-nil ancestors of `b`. */
  predicate Upcastable(a: TypeDescriptor, b: TypeDescriptor) {
    SameType(a, b) || exists i :: 0 <= i < |Chain(ParentTd(b))| && SameType(a, Chain(ParentTd(b))[i])
  }

  /** `upcastable_eq::operator()`, walking the parent chain of `b` as the
      source does. */
  method UpcastableEq(a: TypeDescriptor, b: TypeDescriptor) returns (r: bool)
    ensures r == Upcastable(a, b)
  {
    if SameType(a, b) {
      return true;
    }
    var cur := ParentTd(b);
    ghost var seen: seq<TypeDescriptor> := [];
    while !IsNil(cur)
      invariant seen + Chain(cur) == Chain(ParentTd(b))
      invariant forall i :: 0 <= i < |seen| ==> !SameType(a, seen[i])
      decreases cur
    {
      if SameType(a, cur) {
        assert Chain(ParentTd(b))[|seen|] == cur;
        return true;
      }
      seen := seen + [cur];
      cur := cur.parent.td;
    }
    assert seen == Chain(ParentTd(b));
    return false;
  }

  /** Every descriptor is upcastable to itself. */
  lemma UpcastableReflexive(a: TypeDescriptor)
    ensures Upcastable(a, a)
  {
  }

  /** A derived type is upcastable to its (non-root) base, but not the other
      way round: the relation is not symmetric. */
  lemma UpcastableNotSymmetric()
    ensures var root := TypeDescriptor("root", NilTag, Index("root"));
            var base := TypeDescriptor("base", ParentOf(root), Index("base"));
            var derived := TypeDescriptor("derived", ParentOf(base), Index("derived"));
            Upcastable(base, derived) && !Upcastable(derived, base)
  {
    var root := TypeDescriptor("root", NilTag, Index("root"));
    var base := TypeDescriptor("base", ParentOf(root), Index("base"));
    var derived := TypeDescriptor("derived", ParentOf(base), Index("derived"));
    assert Chain(ParentTd(derived)) == [base];
    assert SameType(base, Chain(ParentTd(derived))[0]);
    assert Chain(ParentTd(base)) == [];
  }
}

=== FILE: wrappers.dfy ===
/** Failure-compatible wrappers shared by every module of the model:
    `Option` stands for a nullable pointer or `std::optional`, `Result` for
    the kernel's `result_or_err<T>` (a value or an error). */
module Wrappers {

  datatype Option<+T> = None | Some(value: T) {

    /** The wrapped value, or `default` when there is none. */
    function GetOr(default: T): T {
      match this
      case Some(v) => v
      case None => default
    }
  }

  datatype Result<+T, +E> = Ok(value: T) | Err(error: E) {

    /** Drops the error part, as `result_or_err::value_or` callers do. */
    function ToOption(): Option<T> {
      match this
      case Ok(v) => Some(v)
      case Err(_) => None
    }
  }
}
